=== FILE: README.md ===
# Bootloader bridge — a Dafny model

This project models the core of a small Go server that bridges HTTP requests
to one WebSocket connection from an embedded bootloader device, and that
streams the device's connectivity status to any number of event-stream
subscribers. The model covers:

- **The NACK error table** (`NackTable`): `GetErrorStringData`, which turns the
  device's failure bitmask into an ordered list of messages, together with the
  `BL_NACK_t` flag constants. The loop is modelled exactly as written, with its
  bound `field <= 8`.
- **Command and response discriminants** (`Protocol`): the five request
  records and five response records with their `Type()` methods, the command
  identifiers, and the decoder table `responseMap`, abstracted to a function
  from an identifier and the reply's fields to a response record.
- **Mailboxes** (`Channel`): a buffered Go channel seen through a
  non-blocking send (`select` with `default`) and a receive that either takes
  the oldest element or would block.
- **The bridge** (`Bridge`): the command channel (capacity 5), the response
  channel (capacity 1), the `connected` flag, the handlers' enqueue and
  post-receive decision, the connect and close handlers, `getClientEventStatus`,
  and one iteration of the device loop in `serveWebsocket`.
- **The status hub** (`StatusHub`): the `listen` loop's register, deregister
  and broadcast arms over a map from client ids to channel states, and a
  subscriber's own end of its channel in `handleSSE`.
- **The whole process** (`Server`): the bridge next to the hub, with the
  connect and close handlers publishing into the hub and subscribers joining,
  receiving the current status and leaving.

Every operation is a pure function over immutable state. Concurrency is
modelled as a sequential interleaving of atomic steps: a receive that would
block is a step that returns `None` (or `Idle`/`Blocked`) and changes nothing.
A Go run-time panic (sending on or closing a closed channel) is an `Err`
result, or `Panicked` for the subscriber's status push.

The model follows the code as written, including these behaviours that a
reader of the source might not expect:

- The `switch` in `GetErrorStringData` has cases for 16, 32 and 64
  (`bl_types.go:112-120`), but the loop stops after 8 (`bl_types.go:97`). So
  "Invalid data", "Invalid CRC" and "Operation failure" are never produced, and
  a mask of `0x40` gives an empty, non-nil list.
- A success mask returns a nil slice (`bl_types.go:90-93`), which marshals to
  JSON `null`. A non-zero mask with no low-nibble bit gives an empty slice,
  which marshals to `[]`. `StringSlice` keeps the two apart, and `ByteSlice`
  does the same for the `[]byte` fields.
- A handler that finds the command channel full drops its command, logs it and
  still waits for a response (`bl_commands.go:30-37`).
- A read error ends the device loop (`websocket.go:79-83`). `connected`
  changes only in the connect and close handlers.
- The current status is sent by the subscriber's own handler after the hub has
  registered its channel (`client_events.go:113`), not by the hub. The channel
  holds one message (`client_events.go:76`). If a broadcast lands in between,
  it fills that slot, and the handler's send blocks forever because the
  handler is the channel's only reader.
- Each link handler first sends its status text on the unbuffered
  `stream.Message` and only then assigns `connected` (`websocket.go:24-25`,
  `websocket.go:39-40`). The hub can register a new subscriber in between,
  and that subscriber's handler reads the old flag (`client_events.go:113`).
  So a subscriber that joins just after "Connected" was broadcast gets
  "Disconnected" and never the event, and one that joins just after a close
  gets a stale "Connected".
- Nothing tells a waiting caller that the link was lost. The caller stays
  blocked at its receive (`bl_commands.go:37`).

## Model

| member | source | states |
|---|---|---|
| NackTable.FlagsAreDistinctBits | bl_types.go:71-82 | success is 0 and the seven failure flags are single bits that share no bit |
| NackTable.MessageTableRoundTrip | bl_types.go:99-123 | the switch's flag-to-message table is inverted by the message-to-flag table, in both directions |
| NackTable.NackMessageInjective | bl_types.go:99-123 | exactly the seven flags have a message and no two flags share one |
| NackTable.ScanIsReportedMessages | bl_types.go:97-125 | the loop as written yields the messages of the set low-nibble flags, lowest flag first |
| NackTable.ReportedFlagsAscending | bl_types.go:97-98 | the flags the loop reports come out strictly ascending, lowest bit first |
| NackTable.ReportedFlagsMembers | bl_types.go:97-98 | a flag is reported exactly when it is one of 1, 2, 4, 8 and set in the mask |
| NackTable.ReportedFlagsCount | bl_types.go:97-98 | as many flags are reported as the mask's low nibble has set bits |
| NackTable.ReportedFlagsKnown | bl_types.go:97-111 | every reported flag is a single bit with a case in the switch |
| NackTable.ErrorStringsSpec | bl_types.go:89-128 | nil exactly for a zero mask; otherwise the messages of the set low-nibble flags in ascending order, their number is the popcount of mask & 0x0F, and no message repeats |
| NackTable.ErrorStringsEntries | bl_types.go:97-125 | entry i of the list is the fixed string of the i-th reported flag, and that flag is one of 1, 2, 4, 8 |
| NackTable.ErrorStringsPresence | bl_types.go:97-123 | a flag's message is produced exactly when the flag is one of 1, 2, 4, 8 and set in the mask |
| NackTable.ErrorStringsLowMessages | bl_types.go:97-111 | each of "Invalid command", "Invalid key", "Invalid address", "Invalid length" is present iff bit 1, 2, 4, 8 respectively is set |
| NackTable.ErrorStringsHighMessagesAbsent | bl_types.go:112-120 | "Invalid data", "Invalid CRC" and "Operation failure" are never produced, whatever the mask |
| NackTable.ErrorStringsIgnoresHighBits | bl_types.go:97 | the messages for a mask equal those for the mask's low nibble |
| NackTable.ErrorStringsExamples | bl_types.go:89-128 | 0 gives nil; 0b11 gives ["Invalid command","Invalid key"]; 4 gives ["Invalid address"]; 0x40 gives an empty non-nil list |
| NackTable.GetErrorStringData | bl_types.go:89-128 | the imperative loop and switch compute the same list as the recursive definition used elsewhere |
| Protocol.Command.Type | command_queue.go:7-24 | a request's Type is its exchange's identifier, one of the ids with a decoder and never 7 |
| Protocol.Response.Type | response_queue.go:9-26 | a response's Type is its exchange's identifier, one of the ids with a decoder and never 7 |
| Protocol.RequestTypeIds | command_queue.go:7-24 | request Types are fixed: erase 5, version 4, jump 8, read 3, write 2 |
| Protocol.ResponseTypeIds | response_queue.go:9-26 | response Types are fixed: version 4, erase 5, write 2, jump 8, read 3 |
| Protocol.KindIdInjective | bl_types.go:62-69 | the five exchanges have pairwise distinct identifiers |
| Protocol.RequestTypeInjective | command_queue.go:7-24 | two requests have the same Type exactly when they are the same record type |
| Protocol.RequestTypeIgnoresFields | command_queue.go:7-24 | a request's Type does not depend on CommandID or any other field bound from the HTTP body |
| Protocol.ResponseTypeInjective | response_queue.go:9-26 | two responses have the same Type exactly when they are the same record type |
| Protocol.ResponseTypeIgnoresCommon | response_queue.go:9-26 | a response's Type does not depend on its status, error code or error strings |
| Protocol.RequestResponseAgree | response_queue.go:9-26 | a request and a response have the same Type exactly when they belong to the same exchange |
| Protocol.Decode | bl_types.go:131-172 | a decoder exists exactly for ids 2, 3, 4, 5 and 8; the record it builds has that Type and the reply's common fields |
| Protocol.EnterCmdModeHasNoDecoder | bl_types.go:131-172 | id 7 has no decoder, and no request or exchange carries id 7 |
| Protocol.DecoderPerKind | bl_types.go:131-172 | each exchange's decoder builds that exchange's record, copying the version or data field where the record has one |
| Channel.TrySend | bl_commands.go:30-34 | a non-blocking send appends iff the channel is not full, else drops the element and leaves the channel unchanged; the capacity bound is kept |
| Channel.Recv | websocket.go:65 | a receive takes the oldest element iff one is buffered, otherwise it would block |
| Channel.RunIsFifo | command_queue.go:26 | over any sequence of sends and receives, received elements followed by the remaining buffer equal the initial buffer followed by the accepted elements, and the buffer stays within capacity |
| Bridge.Init | websocket.go:12 | the initial state is disconnected, with both mailboxes empty and within capacity |
| Bridge.Status | bl_commands.go:229-235 | the status is "Connected" exactly when connected and "Disconnected" exactly when not |
| Bridge.Connect | websocket.go:36-41 | the connect handler publishes "Connected", which is the status of the state it leaves, and sets connected; the mailboxes are unchanged |
| Bridge.Close | websocket.go:21-27 | the close handler publishes "Disconnected", which is the status of the state it leaves, and clears connected; the mailboxes are unchanged |
| Bridge.NewCommand | bl_commands.go:20-226 | each of the five handlers' command literals (lines 23-25, 63-65, 99-101, 165-167, 201-203) has CommandID equal to its own kind's identifier, which is also its Type |
| Bridge.Submit | bl_commands.go:30-37 | a command is queued iff fewer than 5 are queued, at the back; otherwise nothing changes; the queue never exceeds 5 |
| Bridge.DroppedCallerStillWaits | bl_commands.go:30-37 | a caller whose command was dropped leaves the bridge as it was and still receives: it blocks while the slot is empty, otherwise takes the pending response, whoever's it is, and answers as Respond decides |
| Bridge.Respond | bl_commands.go:39-47 | 200 iff the response's Type is the handler's own, in which case the record is the handler's type, Errors is recomputed from ErrorCode and nothing else changes; otherwise 500 with the response unmodified |
| Bridge.Await | bl_commands.go:37-47 | the handler blocks while the slot is empty; otherwise it takes the one pending response and answers as Respond decides |
| Bridge.DeviceStep | websocket.go:65-105 | an iteration dequeues the oldest command and reads one reply; a read error ends the loop with nothing published; a non-text or undecodable reply is a failure; a decoded response is exactly what the command's decoder builds from the reply, has the command's Type, and is published iff the slot is empty, else dropped, so at most one response is ever pending |
| Bridge.DeviceRunInOrder | websocket.go:61-107 | successive iterations serve queued commands in queue order, the i-th consuming the i-th reply, which alone decides whether that iteration lost the link or got a bad reply; the run stops after such an iteration and otherwise only when the replies or the queued commands are used up; every response handed on is the decoding of its reply by its command's Type; both mailboxes stay within capacity |
| Bridge.DeviceRunKeepsGoing | websocket.go:61-107 | the `for` loop does not stop early: unless an iteration lost the link or got a bad reply, it serves until the replies or the queued commands are used up |
| Bridge.DeviceRunDecodes | websocket.go:84-105 | every response the loop publishes or drops came from a text reply and is exactly what the decoder chosen by that command's Type makes of it |
| Bridge.ExecuteRoundTrip | bl_commands.go:30-47 | one caller against an idle bridge gets 200 with a response of its own kind carrying the device's status, code and the code's messages, and the bridge is idle again |
| Bridge.LinkLostLeavesCallerBlocked | websocket.go:79-83 | a read error consumes the command, publishes nothing, and the waiting caller stays blocked |
| Bridge.CrossedResponses | bl_commands.go:37-47 | with two callers of different kinds queued, the second can take the first's response and answer 500 with it, leaving the first blocked |
| Bridge.EraseScenario | bl_commands.go:58-88 | erasing 4 pages at 0x08004000 with a clean reply gives 200, status true, code 0 and a nil error list |
| Bridge.ReadVersionScenario | bl_commands.go:20-48 | reading the version with reply code 4 gives 200, status false, code 4 and ["Invalid address"] |
| StatusHub.Register | client_events.go:37-39 | registering adds exactly the client to the registered set and changes no other client |
| StatusHub.RegisterIdempotent | client_events.go:38 | registering twice is the same as registering once |
| StatusHub.Deregister | client_events.go:42-45 | deregistering removes exactly the client, closes its channel keeping its pending messages, changes no other client, and panics iff the channel was already closed |
| StatusHub.Broadcast | client_events.go:48-51 | a broadcast appends the message to every registered client's queue and to no other, and panics iff a registered channel is closed |
| StatusHub.BroadcastAllInOrder | client_events.go:48-51 | after any run of broadcasts every registered client holds all messages in broadcast order after its earlier ones, and unregistered clients are unchanged |
| StatusHub.Push | client_events.go:113 | a subscriber's own send appends to its queue only and panics iff its channel is closed |
| StatusHub.Receive | client_events.go:115-122 | a read yields the oldest pending message first; the stream ends iff the channel is closed and drained, and blocks iff it is open and empty |
| StatusHub.StreamDrains | client_events.go:115-122 | a stream writes out exactly the pending messages in order and then ends exactly when the channel is closed |
| Server.StartIsDisconnected | websocket.go:12 | the process starts disconnected, with status "Disconnected", empty mailboxes and no subscribers |
| Server.Announce | websocket.go:20-41 | a link handler's send on the message channel (lines 24 and 39) moves the hub exactly as broadcasting that event's status string, and leaves the bridge, `connected` included, as it was |
| Server.JoinerInLinkWindowSeesStaleStatus | client_events.go:113 | a subscriber registered between a link handler's send and its assignment to connected (websocket.go:24-25, 39-40), whose handler reads the flag here, receives the status from before the event, never the event itself, and disagrees with the flag once the handler has finished |
| Server.DeviceConnectedNotifies | websocket.go:36-41 | connecting broadcasts "Connected" to every registered subscriber, sets connected and leaves the mailboxes alone |
| Server.DeviceClosedNotifies | websocket.go:21-27 | closing broadcasts "Disconnected" to every registered subscriber, clears connected and leaves the mailboxes alone |
| Server.LateJoinerSeesStatus | client_events.go:113 | a new subscriber with nothing interleaved holds exactly the current status string |
| Server.LateJoinerAfterConnect | client_events.go:113 | a subscriber joining after the whole connect handler, send and assignment, has run receives "Connected" first |
| Server.SendStatus | client_events.go:113 | the handler's first send panics iff its channel is closed, blocks forever iff the one-slot buffer is already full, and otherwise appends the current status to that channel alone |
| Server.InterleavedEventHangsStatusPush | client_events.go:113 | an event published between registration and the status push fills the new subscriber's channel, so the push never completes |
| Server.Leave | client_events.go:79-82 | leaving panics iff the channel was already closed, and otherwise deregisters and closes it with the bridge untouched |
| Server.LeaverHearsNothingMore | client_events.go:42-51 | after leaving, later link events leave the subscriber's channel closed and unregistered with its pending messages unchanged |
| Server.LinkEventsBroadcast | websocket.go:21-41 | a run of connect and close events moves the hub exactly as broadcasting their status strings, and leaves connected as the last event set it |
| Server.SubscribersSeeEventsInOrder | client_events.go:48-51 | a registered subscriber receives the status string of every link event in the order the events happened |

## Left out

- HTTP routing, request binding, CORS and the event-stream headers (`main.go`, `client_events.go:60-68`): framework wiring. Binding may overwrite any request field; `Protocol.RequestTypeIgnoresFields` shows the `Type` is unaffected.
- The multipart file reading and `strconv.Atoi` address parsing in `flashWrite` (`bl_commands.go:102-126`): I/O and library calls.
- The WebSocket upgrade, `WriteMessage`, `ReadMessage` and `json.Marshal`/`json.Unmarshal`: a device reply is an already-parsed `DeviceReply` (read error, non-text frame, text that does not unmarshal, or the reply's fields).
- Goroutines and blocking: every step is atomic, and a blocked receive is a step that cannot be taken. Races between concurrent handlers for the single response slot appear only as interleavings (`Bridge.CrossedResponses`).
- StatusHub.Broadcast: the hub's sends to subscriber channels block in the code when a channel's single slot is full (`client_events.go:76`). The model appends to an unbounded queue, so a slow or stuck subscriber stalling the hub, and through it the connect and close handlers, is not modelled. Only the subscriber's own first send (`Server.SendStatus`) respects the capacity.
- Bridge.DeviceStep: the close handler, which the WebSocket library runs inside `ReadMessage` when a close frame arrives, is the separate transition `Server.DeviceClosed`; the step itself never changes `connected`.
- Bridge.DeviceStep: the panic at the type assertion on a nil response (`websocket.go:102`), which ends the handler goroutine, is the failure outcome `BadReply`; the recovery by the HTTP server is not modelled.
- StatusHub.StreamDrains: in the code a channel is closed only after `handleSSE` has returned (the deferred send at `client_events.go:79-82` runs after `c.Next()` at line 86), so a live stream never reaches the closed-and-drained exit it describes. The stream's real exit, the HTTP client going away inside `c.Stream`, is not modelled.
- Server.LeaverHearsNothingMore: says nothing about the leaver's pending messages being written out, because no stream reads a channel once it has been closed (see the line above).
- Logging calls and `main`'s start-up sequence.

=== FILE: bridge.dfy ===
/**
 * The bridge between the HTTP handlers and the device loop: the command
 * mailbox (capacity 5), the response slot (capacity 1), the `connected`
 * flag, the handlers' enqueue and post-receive decision, and one iteration
 * of the device loop. Every operation is one atomic step of a sequential
 * interleaving; a receive that would block is a step that cannot be taken.
 */
module Bridge {
  import opened Wrappers
  import opened NackTable
  import opened Protocol
  import opened Channel

  /** `command_channel = make(chan BL_Command, 5)`. */
  const CommandCapacity: nat := 5
  /** `response_channel = make(chan BL_Response, 1)`. */
  const ResponseCapacity: nat := 1

  const StatusOK: int := 200
  const StatusInternalServerError: int := 500

  /** The shared state the handlers and the device loop communicate through. */
  datatype BridgeState = BridgeState(commands: Chan<Command>, responses: Chan<Response>, connected: bool)

  /** Both mailboxes have their declared capacities and respect them. */
  predicate Valid(b: BridgeState) {
    && b.commands.cap == CommandCapacity && b.commands.Valid()
    && b.responses.cap == ResponseCapacity && b.responses.Valid()
  }

  /** The state at start-up: empty mailboxes, not connected. */
  function Init(): (b: BridgeState)
    ensures Valid(b) && !b.connected
    ensures b.commands.buf == [] && b.responses.buf == []
  {
    BridgeState(Make(CommandCapacity), Make(ResponseCapacity), false)
  }

  /** `getClientEventStatus`. */
  function Status(connected: bool): (s: string)
    ensures s == "Connected" <==> connected
    ensures s == "Disconnected" <==> !connected
  {
    if connected then "Connected" else "Disconnected"
  }

  /** `websocketConnectHandler`: the event it publishes, and the state with the flag raised. */
  function Connect(b: BridgeState): (r: (BridgeState, string))
    ensures r.0.connected && r.1 == "Connected" && r.1 == Status(r.0.connected)
    ensures r.0.commands == b.commands && r.0.responses == b.responses
  {
    (b.(connected := true), "Connected")
  }

  /** `websocketCloseHandler`: the event it publishes, and the state with the flag lowered. */
  function Close(b: BridgeState): (r: (BridgeState, string))
    ensures !r.0.connected && r.1 == "Disconnected" && r.1 == Status(r.0.connected)
    ensures r.0.commands == b.commands && r.0.responses == b.responses
  {
    (b.(connected := false), "Disconnected")
  }

  /**
   * The command literal a handler starts from: `CommandID` set to the
   * handler's own identifier, every other field zero.
   */
  function NewCommand(k: CommandKind): (c: Command)
    ensures c.Kind() == k
    ensures c.commandId == KindId(k) && c.Type() == c.commandId
  {
    match k
    case ReadVersion => ReadVersionRequest(VerCmdId)
    case FlashErase => FlashEraseRequest(FlashEraseCmdId, 0, 0)
    case FlashWrite => FlashWriteRequest(MemWriteCmdId, 0, NilBytes, 0)
    case FlashRead => FlashReadRequest(MemReadCmdId, 0, 0)
    case JumpToApp => JumpToAppRequest(JumpToAppCmdId)
  }

  /**
   * The handler's `select { case command_channel <- command: default: }`:
   * the command is queued when there is room and silently dropped otherwise.
   * Either way the handler goes on to wait for a response.
   */
  function Submit(b: BridgeState, c: Command): (r: (BridgeState, bool))
    ensures Valid(b) ==> (r.1 <==> |b.commands.buf| < CommandCapacity)
    ensures r.1 ==> r.0.commands.buf == b.commands.buf + [c] && r.0.commands.cap == b.commands.cap
    ensures !r.1 ==> r.0 == b
    ensures r.0.responses == b.responses && r.0.connected == b.connected
    ensures Valid(b) ==> Valid(r.0) && |r.0.commands.buf| <= CommandCapacity
  {
    var (commands, ok) := TrySend(b.commands, c);
    (b.(commands := commands), ok)
  }

  /** What a handler writes back: an HTTP status and the response as JSON body. */
  datatype HttpReply = HttpReply(code: int, body: Response)

  /**
   * The handler's `switch response.Type()` once a response arrived: 200 with
   * `Errors` recomputed from `ErrorCode` when the type is the handler's own,
   * 500 with the response untouched otherwise.
   */
  function Respond(k: CommandKind, resp: Response): (reply: HttpReply)
    ensures reply.code == StatusOK <==> resp.Type() == KindId(k)
    ensures reply.code == StatusOK || reply.code == StatusInternalServerError
    ensures reply.code == StatusOK ==> resp.Kind() == k && reply.body.Kind() == k
    ensures reply.code == StatusOK ==> reply.body.common.errors == ErrorStrings(resp.common.errorCode)
    ensures reply.code == StatusOK ==> reply.body.WithErrors(NilSlice) == resp.WithErrors(NilSlice)
    ensures reply.code == StatusOK ==> reply.body.common.errorCode == resp.common.errorCode
    ensures reply.code == StatusInternalServerError ==> reply.body == resp
  {
    if resp.Type() == KindId(k) then
      RequestResponseAgree(NewCommand(k), resp);
      HttpReply(StatusOK, resp.WithErrors(ErrorStrings(resp.common.errorCode)))
    else
      HttpReply(StatusInternalServerError, resp)
  }

  /**
   * `<-response_channel` followed by `Respond`, for the handler of kind `k`;
   * `None` while the slot is empty, where the handler stays blocked.
   */
  function Await(b: BridgeState, k: CommandKind): (r: Option<(BridgeState, HttpReply)>)
    ensures r.Some? <==> b.responses.buf != []
    ensures r.Some? ==> r.value.1 == Respond(k, b.responses.buf[0])
    ensures r.Some? ==> r.value.0.responses.buf == b.responses.buf[1..] && r.value.0.responses.cap == b.responses.cap
    ensures r.Some? ==> r.value.0.commands == b.commands && r.value.0.connected == b.connected
    ensures r.Some? && Valid(b) ==> Valid(r.value.0)
  {
    match Recv(b.responses)
    case None => None
    case Some((resp, rest)) => Some((b.(responses := rest), Respond(k, resp)))
  }

  /** What one `ReadMessage` of the device loop returns, already parsed. */
  datatype DeviceReply =
    | ReadFailed              // the read returned an error
    | NonText                 // a message that is not a text frame
    | Malformed               // a text frame that does not unmarshal into the record
    | Text(fields: ReplyFields)

  /** What one iteration of the device loop did. */
  datatype StepOutcome =
    | Idle                                              // nothing queued: the receive blocks
    | LinkLost(command: Command)                        // the read failed: the loop returns
    | BadReply(command: Command)                        // nil response: the loop stops at the type assertion
    | Published(command: Command, response: Response)   // the response went into the slot
    | Dropped(command: Command, response: Response)     // the slot was full: the response is discarded
  {
    /** The loop does not come round again. */
    predicate EndsLoop() {
      LinkLost? || BadReply?
    }
  }

  datatype Step = Step(next: BridgeState, outcome: StepOutcome)

  /**
   * One iteration of the loop in `serveWebsocket`: dequeue a command, read
   * exactly one reply, decode it with the decoder chosen by the command's
   * `Type()`, and publish it without blocking.
   */
  function DeviceStep(b: BridgeState, reply: DeviceReply): (s: Step)
    ensures s.outcome.Idle? <==> b.commands.buf == []
    ensures s.outcome.Idle? ==> s.next == b
    ensures !s.outcome.Idle? ==>
              && s.outcome.command == b.commands.buf[0]
              && s.next.commands.buf == b.commands.buf[1..]
              && s.next.commands.cap == b.commands.cap
              && s.next.connected == b.connected
    ensures s.outcome.LinkLost? <==> b.commands.buf != [] && reply.ReadFailed?
    ensures s.outcome.BadReply? <==> b.commands.buf != [] && (reply.NonText? || reply.Malformed?)
    ensures s.outcome.Published? || s.outcome.Dropped? ==>
              && reply.Text?
              && s.outcome.response.Type() == s.outcome.command.Type()
              && s.outcome.response.Kind() == s.outcome.command.Kind()
              && s.outcome.response.common.errorCode == reply.fields.errorCode
              && Decode(s.outcome.command.Type(), reply.fields) == Some(s.outcome.response)
    ensures s.outcome.Published? <==> b.commands.buf != [] && reply.Text? && !b.responses.Full()
    ensures s.outcome.Published? ==> s.next.responses.buf == b.responses.buf + [s.outcome.response]
    ensures s.outcome.Published? ==> s.next.responses.cap == b.responses.cap
    ensures !s.outcome.Published? ==> s.next.responses == b.responses
    ensures Valid(b) ==> Valid(s.next)
  {
    match Recv(b.commands)
    case None => Step(b, Idle)
    case Some((cmd, rest)) =>
      var b1 := b.(commands := rest);
      match reply
      case ReadFailed => Step(b1, LinkLost(cmd))
      case NonText => Step(b1, BadReply(cmd))
      case Malformed => Step(b1, BadReply(cmd))
      case Text(f) =>
        match Decode(cmd.Type(), f)
        case None => Step(b1, BadReply(cmd))
        case Some(resp) =>
          RequestResponseAgree(cmd, resp);
          var (responses, ok) := TrySend(b.responses, resp);
          if ok then Step(b1.(responses := responses), Published(cmd, resp))
          else Step(b1, Dropped(cmd, resp))
  }

  /** The commands the outcomes report, in order. */
  function CommandsOf(outs: seq<StepOutcome>): seq<Command> {
    if outs == [] then []
    else (if outs[0].Idle? then [] else [outs[0].command]) + CommandsOf(outs[1..])
  }

  /**
   * The device loop fed one reply per dequeued command: it stops when the
   * queue is empty (the next receive blocks), when the replies run out, or
   * after an iteration that ends the loop.
   */
  function DeviceRun(b: BridgeState, replies: seq<DeviceReply>): (BridgeState, seq<StepOutcome>)
    decreases |replies|
  {
    if replies == [] then (b, [])
    else
      var s := DeviceStep(b, replies[0]);
      if s.outcome.Idle? then (b, [])
      else if s.outcome.EndsLoop() then (s.next, [s.outcome])
      else
        var (last, outs) := DeviceRun(s.next, replies[1..]);
        (last, [s.outcome] + outs)
  }

  /**
   * The loop keeps going: unless an iteration ended it, it stops only once
   * the replies or the queued commands are used up.
   */
  lemma {:induction false} DeviceRunKeepsGoing(b: BridgeState, replies: seq<DeviceReply>)
    ensures || (|DeviceRun(b, replies).1| > 0 && DeviceRun(b, replies).1[|DeviceRun(b, replies).1| - 1].EndsLoop())
            || |DeviceRun(b, replies).1| == |replies|
            || |DeviceRun(b, replies).1| == |b.commands.buf|
    decreases |replies|
  {
    if replies != [] {
      var s := DeviceStep(b, replies[0]);
      if !s.outcome.Idle? && !s.outcome.EndsLoop() {
        var (last, outs) := DeviceRun(s.next, replies[1..]);
        DeviceRunKeepsGoing(s.next, replies[1..]);
        var all := [s.outcome] + outs;
        if |outs| > 0 {
          assert all[|all| - 1] == outs[|outs| - 1];
        }
      }
    }
  }

  /** Every response the loop hands on is the decoding of that iteration's reply. */
  lemma {:induction false} DeviceRunDecodes(b: BridgeState, replies: seq<DeviceReply>)
    ensures forall i :: 0 <= i < |DeviceRun(b, replies).1| && (DeviceRun(b, replies).1[i].Published? || DeviceRun(b, replies).1[i].Dropped?) ==>
              && i < |replies|
              && replies[i].Text?
              && Decode(DeviceRun(b, replies).1[i].command.Type(), replies[i].fields) == Some(DeviceRun(b, replies).1[i].response)
    decreases |replies|
  {
    if replies != [] {
      var s := DeviceStep(b, replies[0]);
      if !s.outcome.Idle? && !s.outcome.EndsLoop() {
        var (last, outs) := DeviceRun(s.next, replies[1..]);
        DeviceRunDecodes(s.next, replies[1..]);
        var all := [s.outcome] + outs;
        forall i | 0 <= i < |all| && (all[i].Published? || all[i].Dropped?)
          ensures i < |replies| && replies[i].Text? && Decode(all[i].command.Type(), replies[i].fields) == Some(all[i].response)
        {
          if i > 0 {
            assert all[i] == outs[i - 1];
            assert replies[1..][i - 1] == replies[i];
          }
        }
      }
    }
  }

  /**
   * The loop serves commands strictly in the order they were queued, one
   * reply per command, never runs past an iteration that ends it, and keeps
   * both mailboxes within their capacities.
   */
  lemma {:induction false} DeviceRunServesInOrder(b: BridgeState, replies: seq<DeviceReply>)
    ensures |DeviceRun(b, replies).1| <= |replies| && |DeviceRun(b, replies).1| <= |b.commands.buf|
    ensures CommandsOf(DeviceRun(b, replies).1) == b.commands.buf[..|DeviceRun(b, replies).1|]
    ensures DeviceRun(b, replies).0.commands.buf == b.commands.buf[|DeviceRun(b, replies).1|..]
    ensures forall i :: 0 <= i < |DeviceRun(b, replies).1| - 1 ==> !DeviceRun(b, replies).1[i].EndsLoop()
    ensures forall i :: 0 <= i < |DeviceRun(b, replies).1| ==>
              && !DeviceRun(b, replies).1[i].Idle?
              && (DeviceRun(b, replies).1[i].LinkLost? <==> replies[i].ReadFailed?)
              && (DeviceRun(b, replies).1[i].BadReply? <==> replies[i].NonText? || replies[i].Malformed?)
    ensures DeviceRun(b, replies).0.connected == b.connected
    ensures Valid(b) ==> Valid(DeviceRun(b, replies).0)
    decreases |replies|
  {
    if replies != [] {
      var s := DeviceStep(b, replies[0]);
      if !s.outcome.Idle? && !s.outcome.EndsLoop() {
        var (last, outs) := DeviceRun(s.next, replies[1..]);
        DeviceRunServesInOrder(s.next, replies[1..]);
        var all := [s.outcome] + outs;
        assert all[1..] == outs;
        assert CommandsOf(all) == [b.commands.buf[0]] + CommandsOf(outs);
        assert b.commands.buf[1..][..|outs|] == b.commands.buf[1..|all|];
        assert b.commands.buf[..|all|] == [b.commands.buf[0]] + b.commands.buf[1..|all|];
        forall i | 0 <= i < |all| - 1
          ensures !all[i].EndsLoop()
        {
          if i > 0 {
            assert all[i] == outs[i - 1];
          }
        }
        forall i | 0 <= i < |all|
          ensures !all[i].Idle?
          ensures all[i].LinkLost? <==> replies[i].ReadFailed?
          ensures all[i].BadReply? <==> replies[i].NonText? || replies[i].Malformed?
        {
          if i > 0 {
            assert all[i] == outs[i - 1];
            assert replies[1..][i - 1] == replies[i];
          }
        }
      } else if !s.outcome.Idle? {
        assert CommandsOf([s.outcome]) == [b.commands.buf[0]];
      }
    }
  }

  /**
   * The loop serves commands strictly in the order they were queued, one
   * reply per command, never runs past an iteration that ends it, and keeps
   * both mailboxes within their capacities. It also keeps going: unless an
   * iteration ended it, it stops only once the replies or the queued
   * commands are used up. Every response it hands on is the decoding of
   * that iteration's reply.
   */
  lemma {:induction false} DeviceRunInOrder(b: BridgeState, replies: seq<DeviceReply>)
    ensures |DeviceRun(b, replies).1| <= |replies| && |DeviceRun(b, replies).1| <= |b.commands.buf|
    ensures CommandsOf(DeviceRun(b, replies).1) == b.commands.buf[..|DeviceRun(b, replies).1|]
    ensures DeviceRun(b, replies).0.commands.buf == b.commands.buf[|DeviceRun(b, replies).1|..]
    ensures forall i :: 0 <= i < |DeviceRun(b, replies).1| - 1 ==> !DeviceRun(b, replies).1[i].EndsLoop()
    ensures forall i :: 0 <= i < |DeviceRun(b, replies).1| ==>
              && !DeviceRun(b, replies).1[i].Idle?
              && (DeviceRun(b, replies).1[i].LinkLost? <==> replies[i].ReadFailed?)
              && (DeviceRun(b, replies).1[i].BadReply? <==> replies[i].NonText? || replies[i].Malformed?)
    ensures forall i :: 0 <= i < |DeviceRun(b, replies).1| && (DeviceRun(b, replies).1[i].Published? || DeviceRun(b, replies).1[i].Dropped?) ==>
              && replies[i].Text?
              && Decode(DeviceRun(b, replies).1[i].command.Type(), replies[i].fields) == Some(DeviceRun(b, replies).1[i].response)
    ensures || (|DeviceRun(b, replies).1| > 0 && DeviceRun(b, replies).1[|DeviceRun(b, replies).1| - 1].EndsLoop())
            || |DeviceRun(b, replies).1| == |replies|
            || |DeviceRun(b, replies).1| == |b.commands.buf|
    ensures DeviceRun(b, replies).0.connected == b.connected
    ensures Valid(b) ==> Valid(DeviceRun(b, replies).0)
  {
    DeviceRunServesInOrder(b, replies);
    DeviceRunKeepsGoing(b, replies);
    DeviceRunDecodes(b, replies);
  }

  /**
   * A caller whose command was dropped still goes on to the receive: it
   * takes whatever response is pending, another caller's included, and
   * answers as `Respond` decides, or blocks while the slot is empty.
   */
  lemma DroppedCallerStillWaits(b: BridgeState, c: Command, k: CommandKind)
    requires Valid(b) && |b.commands.buf| == CommandCapacity
    ensures !Submit(b, c).1 && Submit(b, c).0 == b
    ensures Await(Submit(b, c).0, k).Some? <==> b.responses.buf != []
    ensures Await(Submit(b, c).0, k).Some? ==> Await(Submit(b, c).0, k).value.1 == Respond(k, b.responses.buf[0])
  {
  }

  /**
   * One caller against an idle bridge: the command is accepted, the device
   * loop publishes a response of the same kind, and the handler answers 200
   * with the error strings of the device's error code; afterwards the bridge
   * is idle again.
   */
  lemma ExecuteRoundTrip(b: BridgeState, c: Command, f: ReplyFields)
    requires Valid(b) && b.commands.buf == [] && b.responses.buf == []
    ensures Submit(b, c).1
    ensures DeviceStep(Submit(b, c).0, Text(f)).outcome.Published?
    ensures Await(DeviceStep(Submit(b, c).0, Text(f)).next, c.Kind()).Some?
    ensures Await(DeviceStep(Submit(b, c).0, Text(f)).next, c.Kind()).value.0 == b
    ensures Await(DeviceStep(Submit(b, c).0, Text(f)).next, c.Kind()).value.1.code == StatusOK
    ensures Await(DeviceStep(Submit(b, c).0, Text(f)).next, c.Kind()).value.1.body.Kind() == c.Kind()
    ensures Await(DeviceStep(Submit(b, c).0, Text(f)).next, c.Kind()).value.1.body.common
              == CommonResponseData(f.status, f.errorCode, ErrorStrings(f.errorCode))
  {
    var (b1, ok) := Submit(b, c);
    assert b1.commands.buf == [c];
    var s := DeviceStep(b1, Text(f));
    DecoderPerKind(c.Kind(), f);
    assert s.next.responses.buf == [s.outcome.response];
    var r := Respond(c.Kind(), s.outcome.response);
    assert r.body.common == s.outcome.response.common.(errors := ErrorStrings(f.errorCode));
  }

  /**
   * When the read fails the command is consumed and nothing is published, so
   * a caller waiting on an empty slot stays blocked.
   */
  lemma LinkLostLeavesCallerBlocked(b: BridgeState, c: Command)
    requires Valid(b) && b.commands.buf == [] && b.responses.buf == []
    ensures DeviceStep(Submit(b, c).0, ReadFailed).outcome == LinkLost(c)
    ensures DeviceStep(Submit(b, c).0, ReadFailed).next.commands.buf == []
    ensures Await(DeviceStep(Submit(b, c).0, ReadFailed).next, c.Kind()).None?
  {
  }

  /**
   * Two callers of different kinds queue one command each; the loop answers
   * the first. If the second caller takes that response from the slot, it
   * answers 500 with the first caller's response, and the first caller is
   * left blocked.
   */
  lemma CrossedResponses(b: BridgeState, c1: Command, c2: Command, f: ReplyFields)
    requires Valid(b) && b.commands.buf == [] && b.responses.buf == []
    requires c1.Kind() != c2.Kind()
    ensures Submit(Submit(b, c1).0, c2).1
    ensures DeviceStep(Submit(Submit(b, c1).0, c2).0, Text(f)).outcome.Published?
    ensures Await(DeviceStep(Submit(Submit(b, c1).0, c2).0, Text(f)).next, c2.Kind()).Some?
    ensures Await(DeviceStep(Submit(Submit(b, c1).0, c2).0, Text(f)).next, c2.Kind()).value.1.code == StatusInternalServerError
    ensures Await(DeviceStep(Submit(Submit(b, c1).0, c2).0, Text(f)).next, c2.Kind()).value.1.body.Kind() == c1.Kind()
    ensures Await(Await(DeviceStep(Submit(Submit(b, c1).0, c2).0, Text(f)).next, c2.Kind()).value.0, c1.Kind()).None?
  {
    var b1 := Submit(Submit(b, c1).0, c2).0;
    assert b1.commands.buf == [c1, c2];
    var s := DeviceStep(b1, Text(f));
    RequestResponseAgree(c2, s.outcome.response);
    KindIdInjective(c1.Kind(), c2.Kind());
  }

  /** Erasing four pages at 0x08004000 and a clean reply: 200, status true, code 0, nil error list. */
  lemma EraseScenario(b: BridgeState)
    requires Valid(b) && b.commands.buf == [] && b.responses.buf == []
    ensures
      var f := ReplyFields(true, 0, NilSlice, 0, NilBytes);
      var c := FlashEraseRequest(FlashEraseCmdId, 0x0800_4000, 4);
      var s := DeviceStep(Submit(b, c).0, Text(f));
      && Await(s.next, FlashErase).Some?
      && Await(s.next, FlashErase).value.1 == HttpReply(StatusOK, FlashEraseResponse(CommonResponseData(true, 0, NilSlice)))
  {
    var f := ReplyFields(true, 0, NilSlice, 0, NilBytes);
    ExecuteRoundTrip(b, FlashEraseRequest(FlashEraseCmdId, 0x0800_4000, 4), f);
  }

  /** Reading the version with an invalid-address reply: 200, status false, code 4, ["Invalid address"]. */
  lemma ReadVersionScenario(b: BridgeState)
    requires Valid(b) && b.commands.buf == [] && b.responses.buf == []
    ensures
      var f := ReplyFields(false, 4, NilSlice, 0, NilBytes);
      var s := DeviceStep(Submit(b, NewCommand(ReadVersion)).0, Text(f));
      && Await(s.next, ReadVersion).Some?
      && Await(s.next, ReadVersion).value.1
           == HttpReply(StatusOK, ReadVersionResponse(CommonResponseData(false, 4, Slice(["Invalid address"])), 0))
  {
    var f := ReplyFields(false, 4, NilSlice, 0, NilBytes);
    ErrorStringsExamples();
    ExecuteRoundTrip(b, NewCommand(ReadVersion), f);
  }
}

=== FILE: channel.dfy ===
/**
 * A buffered Go channel seen through the operations the bridge uses: the
 * non-blocking send of a `select` with a `default` arm, and a receive that
 * either takes the oldest element or would block.
 */
module Channel {
  import opened Wrappers

  /** The buffered elements, oldest first, and the capacity given to `make`. */
  datatype Chan<T> = Chan(buf: seq<T>, cap: nat) {
    /** A Go channel never buffers more than its capacity. */
    predicate Valid() {
      |buf| <= cap
    }

    /** No further element fits. */
    predicate Full() {
      |buf| >= cap
    }
  }

  /** `make(chan T, cap)`. */
  function Make<T>(cap: nat): Chan<T> {
    Chan([], cap)
  }

  /**
   * `select { case ch <- x: default: }`: the element is appended when there
   * is room, and otherwise dropped with the channel unchanged.
   */
  function TrySend<T>(c: Chan<T>, x: T): (r: (Chan<T>, bool))
    ensures r.1 <==> !c.Full()
    ensures r.1 ==> r.0.buf == c.buf + [x] && r.0.cap == c.cap
    ensures !r.1 ==> r.0 == c
    ensures c.Valid() ==> r.0.Valid()
  {
    if |c.buf| < c.cap then (c.(buf := c.buf + [x]), true) else (c, false)
  }

  /** `<-ch`: the oldest element and the rest, or `None` when the receive would block. */
  function Recv<T>(c: Chan<T>): (r: Option<(T, Chan<T>)>)
    ensures r.Some? <==> c.buf != []
    ensures r.Some? ==> [r.value.0] + r.value.1.buf == c.buf && r.value.1.cap == c.cap
    ensures r.Some? ==> |r.value.1.buf| < |c.buf|
  {
    if c.buf == [] then None else Some((c.buf[0], c.(buf := c.buf[1..])))
  }

  /** One operation on a channel in a sequential interleaving. */
  datatype Op<T> = Send(x: T) | Receive

  /** The state of a run: the channel, what was accepted, and what was received. */
  datatype Trace<T> = Trace(chan: Chan<T>, accepted: seq<T>, received: seq<T>)

  /** One operation: a receive that would block is skipped, a send that does not fit is dropped. */
  function Apply<T>(c: Chan<T>, op: Op<T>): Trace<T> {
    match op
    case Send(x) =>
      var (c1, ok) := TrySend(c, x);
      Trace(c1, if ok then [x] else [], [])
    case Receive =>
      match Recv(c)
      case Some((x, c1)) => Trace(c1, [], [x])
      case None => Trace(c, [], [])
  }

  /** Apply `ops` in order. */
  function Run<T>(c: Chan<T>, ops: seq<Op<T>>): Trace<T>
    decreases |ops|
  {
    if ops == [] then Trace(c, [], [])
    else
      var s := Apply(c, ops[0]);
      var t := Run(s.chan, ops[1..]);
      Trace(t.chan, s.accepted + t.accepted, s.received + t.received)
  }

  /** One operation moves elements from the accepted side to the received side in order. */
  lemma ApplyIsFifo<T>(c: Chan<T>, op: Op<T>)
    requires c.Valid()
    ensures Apply(c, op).received + Apply(c, op).chan.buf == c.buf + Apply(c, op).accepted
    ensures Apply(c, op).chan.Valid() && Apply(c, op).chan.cap == c.cap
  {
  }

  /** Two FIFO stretches in a row make one. */
  lemma ChainFifo<T>(out1: seq<T>, mid: seq<T>, in1: seq<T>, out2: seq<T>, last: seq<T>, in2: seq<T>, first: seq<T>)
    requires out1 + mid == first + in1
    requires out2 + last == mid + in2
    ensures (out1 + out2) + last == first + (in1 + in2)
  {
    calc {
      (out1 + out2) + last;
      out1 + (out2 + last);
      out1 + (mid + in2);
      (out1 + mid) + in2;
      (first + in1) + in2;
      first + (in1 + in2);
    }
  }

  /**
   * FIFO with a bound: whatever sequence of sends and receives is applied,
   * what comes out followed by what is still buffered is exactly what was
   * buffered before followed by what was accepted, and the buffer never
   * exceeds the capacity.
   */
  lemma {:induction false} RunIsFifo<T>(c: Chan<T>, ops: seq<Op<T>>)
    requires c.Valid()
    ensures Run(c, ops).received + Run(c, ops).chan.buf == c.buf + Run(c, ops).accepted
    ensures Run(c, ops).chan.Valid() && Run(c, ops).chan.cap == c.cap
    decreases |ops|
  {
    if ops != [] {
      var s := Apply(c, ops[0]);
      var t := Run(s.chan, ops[1..]);
      ApplyIsFifo(c, ops[0]);
      RunIsFifo(s.chan, ops[1..]);
      var r := Run(c, ops);
      assert r == Trace(t.chan, s.accepted + t.accepted, s.received + t.received);
      ChainFifo(s.received, s.chan.buf, s.accepted, t.received, t.chan.buf, t.accepted, c.buf);
    }
  }
}

=== FILE: hub.dfy ===
/**
 * The status hub of the event stream: a set of subscriber channels the hub
 * loop registers, deregisters (and closes), and broadcasts to, plus each
 * subscriber's own end of its channel. The hub's sends never block here: a
 * subscriber's channel is an unbounded queue, and only the subscriber's own
 * first send looks at the channel's capacity.
 */
module StatusHub {
  import opened Wrappers

  /** The buffer size of each subscriber channel, `make(ClientChan, 1)`. */
  const ClientCapacity: nat := 1

  /** Stands for one subscriber's `chan string`. */
  type ClientId = nat

  /**
   * One subscriber channel: messages sent but not yet read, whether the hub
   * holds it in `TotalClients`, and whether it has been closed.
   */
  datatype Client = Client(pending: seq<string>, registered: bool, closed: bool)

  /** Every channel the hub or a stream has touched, by id. */
  datatype Hub = Hub(clients: map<ClientId, Client>)

  /** The Go run-time panics a channel operation can raise. */
  datatype HubPanic = CloseOfClosedChannel | SendOnClosedChannel

  /** A channel nobody has touched yet: empty, unregistered, open. */
  const Fresh: Client := Client([], false, false)

  /** The hub's view of a channel, fresh when it has not seen it before. */
  function Lookup(h: Hub, id: ClientId): Client {
    if id in h.clients then h.clients[id] else Fresh
  }

  /** The keys of `TotalClients`. */
  function Registered(h: Hub): set<ClientId> {
    set id | id in h.clients && h.clients[id].registered
  }

  /** No registered channel is closed, so a broadcast cannot panic. */
  predicate Valid(h: Hub) {
    forall id :: id in h.clients && h.clients[id].registered ==> !h.clients[id].closed
  }

  /** Every client other than `id` is exactly as before. */
  predicate OthersUnchanged(h: Hub, h': Hub, id: ClientId) {
    && h'.clients.Keys - {id} == h.clients.Keys - {id}
    && forall o :: o in h.clients && o != id ==> o in h'.clients && h'.clients[o] == h.clients[o]
  }

  /** The hub as `NewSSEServer` creates it. */
  function Empty(): (h: Hub)
    ensures Valid(h) && Registered(h) == {}
  {
    Hub(map[])
  }

  /** The `NewClients` arm: `stream.TotalClients[client] = true`. */
  function Register(h: Hub, id: ClientId): (r: Hub)
    ensures Registered(r) == Registered(h) + {id}
    ensures id in r.clients && r.clients[id] == Lookup(h, id).(registered := true)
    ensures OthersUnchanged(h, r, id)
    ensures Valid(h) && !Lookup(h, id).closed ==> Valid(r)
  {
    Hub(h.clients[id := Lookup(h, id).(registered := true)])
  }

  /** The `ClosedClients` arm: `delete(stream.TotalClients, client); close(client)`. */
  function Deregister(h: Hub, id: ClientId): (r: Result<Hub, HubPanic>)
    ensures r.Err? <==> Lookup(h, id).closed
    ensures r.Err? ==> r.error == CloseOfClosedChannel
    ensures r.Ok? ==> Registered(r.value) == Registered(h) - {id}
    ensures r.Ok? ==> id in r.value.clients && r.value.clients[id] == Client(Lookup(h, id).pending, false, true)
    ensures r.Ok? ==> OthersUnchanged(h, r.value, id)
    ensures r.Ok? && Valid(h) ==> Valid(r.value)
  {
    var c := Lookup(h, id);
    if c.closed then Err(CloseOfClosedChannel)
    else Ok(Hub(h.clients[id := Client(c.pending, false, true)]))
  }

  /** The `Message` arm: send `msg` on every registered channel. */
  function Broadcast(h: Hub, msg: string): (r: Result<Hub, HubPanic>)
    ensures r.Err? <==> exists id :: id in h.clients && h.clients[id].registered && h.clients[id].closed
    ensures r.Err? ==> r.error == SendOnClosedChannel
    ensures Valid(h) ==> r.Ok?
    ensures r.Ok? ==> r.value.clients.Keys == h.clients.Keys
    ensures r.Ok? ==> forall id :: id in h.clients && h.clients[id].registered ==>
              r.value.clients[id] == h.clients[id].(pending := h.clients[id].pending + [msg])
    ensures r.Ok? ==> forall id :: id in h.clients && !h.clients[id].registered ==>
              r.value.clients[id] == h.clients[id]
    ensures r.Ok? ==> Registered(r.value) == Registered(h) && Valid(r.value)
  {
    if exists id :: id in h.clients && h.clients[id].registered && h.clients[id].closed then
      Err(SendOnClosedChannel)
    else
      var r := Hub(map id | id in h.clients ::
                     if h.clients[id].registered then h.clients[id].(pending := h.clients[id].pending + [msg])
                     else h.clients[id]);
      assert Registered(r) == Registered(h);
      Ok(r)
  }

  /** `clientChan <- msg` sent by the subscriber's own stream handler. */
  function Push(h: Hub, id: ClientId, msg: string): (r: Result<Hub, HubPanic>)
    ensures r.Err? <==> Lookup(h, id).closed
    ensures r.Ok? ==> id in r.value.clients && r.value.clients[id] == Lookup(h, id).(pending := Lookup(h, id).pending + [msg])
    ensures r.Ok? ==> OthersUnchanged(h, r.value, id)
    ensures r.Ok? ==> Registered(r.value) == Registered(h)
    ensures r.Ok? && Valid(h) ==> Valid(r.value)
  {
    var c := Lookup(h, id);
    if c.closed then Err(SendOnClosedChannel)
    else
      var r := Hub(h.clients[id := c.(pending := c.pending + [msg])]);
      assert Registered(r) == Registered(h);
      Ok(r)
  }

  /** Broadcast each message of `msgs` in turn, stopping at the first panic. */
  function BroadcastAll(h: Hub, msgs: seq<string>): Result<Hub, HubPanic>
    decreases |msgs|
  {
    if msgs == [] then Ok(h)
    else
      match Broadcast(h, msgs[0])
      case Err(e) => Err(e)
      case Ok(h1) => BroadcastAll(h1, msgs[1..])
  }

  /**
   * Fan-out order: after any run of broadcasts on a valid hub, every
   * registered client has received all the messages, in broadcast order,
   * after what it already held; no other client received anything.
   */
  lemma {:induction false} BroadcastAllInOrder(h: Hub, msgs: seq<string>)
    requires Valid(h)
    ensures BroadcastAll(h, msgs).Ok?
    ensures Valid(BroadcastAll(h, msgs).value)
    ensures BroadcastAll(h, msgs).value.clients.Keys == h.clients.Keys
    ensures Registered(BroadcastAll(h, msgs).value) == Registered(h)
    ensures forall id :: id in h.clients && h.clients[id].registered ==>
              BroadcastAll(h, msgs).value.clients[id] == h.clients[id].(pending := h.clients[id].pending + msgs)
    ensures forall id :: id in h.clients && !h.clients[id].registered ==>
              BroadcastAll(h, msgs).value.clients[id] == h.clients[id]
    decreases |msgs|
  {
    if msgs == [] {
      forall id | id in h.clients
        ensures h.clients[id].(pending := h.clients[id].pending + msgs) == h.clients[id]
      {
        assert h.clients[id].pending + msgs == h.clients[id].pending;
      }
    } else {
      var h1 := Broadcast(h, msgs[0]).value;
      BroadcastAllInOrder(h1, msgs[1..]);
      var r := BroadcastAll(h, msgs).value;
      assert r == BroadcastAll(h1, msgs[1..]).value;
      forall id | id in h.clients && h.clients[id].registered
        ensures r.clients[id] == h.clients[id].(pending := h.clients[id].pending + msgs)
      {
        assert h1.clients[id].registered;
        assert h.clients[id].pending + [msgs[0]] + msgs[1..] == h.clients[id].pending + msgs;
      }
      forall id | id in h.clients && !h.clients[id].registered
        ensures r.clients[id] == h.clients[id]
      {
        assert !h1.clients[id].registered;
      }
    }
  }

  /** Registering an already registered client changes nothing. */
  lemma RegisterIdempotent(h: Hub, id: ClientId)
    ensures Register(Register(h, id), id) == Register(h, id)
  {
  }

  /** What a receive on a subscriber channel gives. */
  datatype Read = Message(msg: string) | EndOfStream | Blocked

  /**
   * `msg, ok := <-clientChan` in the stream callback: buffered messages come
   * first; once the channel is closed and drained, `ok` is false and the
   * stream ends; an open, empty channel blocks.
   */
  function Receive(h: Hub, id: ClientId): (r: (Hub, Read))
    ensures r.1.EndOfStream? <==> Lookup(h, id).pending == [] && Lookup(h, id).closed
    ensures r.1.Blocked? <==> Lookup(h, id).pending == [] && !Lookup(h, id).closed
    ensures r.1.Message? ==> [r.1.msg] + Lookup(r.0, id).pending == Lookup(h, id).pending
    ensures r.1.Message? ==> Lookup(r.0, id).closed == Lookup(h, id).closed
    ensures r.1.Message? ==> Lookup(r.0, id).registered == Lookup(h, id).registered
    ensures !r.1.Message? ==> r.0 == h
    ensures OthersUnchanged(h, r.0, id)
    ensures Registered(r.0) == Registered(h)
    ensures Valid(h) ==> Valid(r.0)
  {
    var c := Lookup(h, id);
    if c.pending != [] then
      var r := Hub(h.clients[id := c.(pending := c.pending[1..])]);
      assert Registered(r) == Registered(h);
      (r, Message(c.pending[0]))
    else if c.closed then (h, EndOfStream)
    else (h, Blocked)
  }

  /**
   * The `c.Stream` loop run `n` times on one subscriber: the messages it
   * writes out, and whether the stream has ended.
   */
  function Stream(h: Hub, id: ClientId, n: nat): (seq<string>, bool)
    decreases n
  {
    if n == 0 then ([], false)
    else
      var (h1, read) := Receive(h, id);
      match read
      case Message(m) =>
        var (rest, ended) := Stream(h1, id, n - 1);
        ([m] + rest, ended)
      case EndOfStream => ([], true)
      case Blocked => ([], false)
  }

  /**
   * Given enough turns, a subscriber's stream writes out exactly the
   * messages pending on its channel, in order, and then ends exactly when
   * the channel has been closed.
   */
  lemma {:induction false} StreamDrains(h: Hub, id: ClientId, n: nat)
    requires n > |Lookup(h, id).pending|
    ensures Stream(h, id, n).0 == Lookup(h, id).pending
    ensures Stream(h, id, n).1 <==> Lookup(h, id).closed
    decreases n
  {
    var (h1, read) := Receive(h, id);
    if read.Message? {
      StreamDrains(h1, id, n - 1);
    }
  }
}

=== FILE: nack.dfy ===
/**
 * The NACK flags a bootloader reply carries in its error byte, and the
 * table that turns such a byte into human-readable messages.
 */
module NackTable {
  import opened Wrappers

  /** Go's `uint8`. */
  type Byte = bv8

  const NackSuccess: Byte := 0
  const NackInvalidCmd: Byte := 1
  const NackInvalidKey: Byte := 2
  const NackInvalidAddress: Byte := 4
  const NackInvalidLength: Byte := 8
  const NackInvalidData: Byte := 16
  const NackInvalidCrc: Byte := 32
  const NackOperationFailure: Byte := 64

  /** Every failure flag the device defines, lowest bit first. */
  const FailureFlags: seq<Byte> := [NackInvalidCmd, NackInvalidKey, NackInvalidAddress, NackInvalidLength,
                                    NackInvalidData, NackInvalidCrc, NackOperationFailure]

  /** True when `x` has exactly one bit set. */
  predicate SingleBit(x: Byte) {
    x != 0 && x & (x - 1) == 0
  }

  /**
   * A Go `[]string`: the nil slice and an empty slice are different values
   * (the first marshals to JSON `null`, the second to `[]`).
   */
  datatype StringSlice = NilSlice | Slice(contents: seq<string>) {
    function Elements(): seq<string> {
      match this
      case NilSlice => []
      case Slice(s) => s
    }
  }

  /** The message the `switch` appends for one flag value, if it has a case for it. */
  function NackMessage(flag: Byte): Option<string> {
    if flag == NackInvalidCmd then Some("Invalid command")
    else if flag == NackInvalidKey then Some("Invalid key")
    else if flag == NackInvalidAddress then Some("Invalid address")
    else if flag == NackInvalidLength then Some("Invalid length")
    else if flag == NackInvalidData then Some("Invalid data")
    else if flag == NackInvalidCrc then Some("Invalid CRC")
    else if flag == NackOperationFailure then Some("Operation failure")
    else None
  }

  /** The flag a message stands for: the inverse of `NackMessage`. */
  function MessageFlag(s: string): Option<Byte> {
    if s == "Invalid command" then Some(NackInvalidCmd)
    else if s == "Invalid key" then Some(NackInvalidKey)
    else if s == "Invalid address" then Some(NackInvalidAddress)
    else if s == "Invalid length" then Some(NackInvalidLength)
    else if s == "Invalid data" then Some(NackInvalidData)
    else if s == "Invalid CRC" then Some(NackInvalidCrc)
    else if s == "Operation failure" then Some(NackOperationFailure)
    else None
  }

  /**
   * One iteration of the loop body: the message for `field` when that bit is
   * set in `fields` and the switch has a case for it, otherwise nothing.
   */
  function Pick(fields: Byte, field: Byte): seq<string> {
    if field & fields != 0 then
      match NackMessage(field)
      case Some(m) => [m]
      case None => []
    else []
  }

  /**
   * The loop `for field := 1; field <= 8; field *= 2` from `field` onwards,
   * with Go's 8-bit multiplication.
   */
  function Scan(fields: Byte, field: Byte): seq<string>
    requires field != 0
    decreases 16 - field as int
  {
    if field <= 8 then Pick(fields, field) + Scan(fields, field * 2) else []
  }

  /** `GetErrorStringData`: nil for success, otherwise the messages the loop collects. */
  function ErrorStrings(fields: Byte): StringSlice {
    if fields == NackSuccess then NilSlice else Slice(Scan(fields, 1))
  }

  /** The number of set bits among the lowest `n` bits of `x`. */
  function BitCount(x: Byte, n: nat): nat
    requires n <= 8
  {
    if n == 0 then 0 else BitCount(x, n - 1) + (if x & (1 << (n - 1)) != 0 then 1 else 0)
  }

  /** The four flags of the low nibble, lowest first. */
  const LowFlags: seq<Byte> := [NackInvalidCmd, NackInvalidKey, NackInvalidAddress, NackInvalidLength]

  /** The flags of `flags` that are set in `fields`, in their original order. */
  function SetIn(fields: Byte, flags: seq<Byte>): seq<Byte> {
    if flags == [] then []
    else (if flags[0] & fields != 0 then [flags[0]] else []) + SetIn(fields, flags[1..])
  }

  /**
   * Reference definition of what the table reports: the low-nibble flags set
   * in `fields`, lowest first.
   */
  function ReportedFlags(fields: Byte): seq<Byte> {
    SetIn(fields, LowFlags)
  }

  /** `flags` is strictly increasing. */
  predicate StrictlyAscending(flags: seq<Byte>) {
    forall i, j :: 0 <= i < j < |flags| ==> flags[i] < flags[j]
  }

  /** The messages of a sequence of flags, skipping flags the table has no case for. */
  function MessagesOf(flags: seq<Byte>): seq<string> {
    if flags == [] then [] else MessageOf(flags[0]) + MessagesOf(flags[1..])
  }

  /** The message of one flag as a list of at most one entry. */
  function MessageOf(flag: Byte): seq<string> {
    match NackMessage(flag)
    case Some(m) => [m]
    case None => []
  }

  /** Every flag in `flags` has a message in the table. */
  predicate AllKnown(flags: seq<Byte>) {
    forall i :: 0 <= i < |flags| ==> NackMessage(flags[i]).Some?
  }

  /** The seven flags are distinct single bits, and success is the empty mask. */
  lemma FlagsAreDistinctBits()
    ensures NackSuccess == 0
    ensures forall i :: 0 <= i < |FailureFlags| ==> SingleBit(FailureFlags[i])
    ensures forall i, j :: 0 <= i < j < |FailureFlags| ==> FailureFlags[i] & FailureFlags[j] == 0
  {
  }

  /** `MessageFlag` undoes `NackMessage`, and the other way round. */
  lemma MessageTableRoundTrip(flag: Byte, s: string)
    ensures NackMessage(flag) == Some(s) <==> MessageFlag(s) == Some(flag)
  {
  }

  /** Exactly the seven failure flags have messages, and no two share one. */
  lemma NackMessageInjective(f: Byte, g: Byte)
    ensures NackMessage(f).Some? <==> f in FailureFlags
    ensures NackMessage(f).Some? && NackMessage(f) == NackMessage(g) ==> f == g
  {
    if NackMessage(f).Some? && NackMessage(f) == NackMessage(g) {
      MessageTableRoundTrip(f, NackMessage(f).value);
      MessageTableRoundTrip(g, NackMessage(f).value);
    }
  }

  /** `MessagesOf` distributes over concatenation. */
  lemma {:induction false} MessagesOfAppend(a: seq<Byte>, b: seq<Byte>)
    ensures MessagesOf(a + b) == MessagesOf(a) + MessagesOf(b)
    decreases |a|
  {
    if a != [] {
      assert (a + b)[0] == a[0];
      assert (a + b)[1..] == a[1..] + b;
      MessagesOfAppend(a[1..], b);
      calc {
        MessagesOf(a + b);
        MessageOf(a[0]) + MessagesOf(a[1..] + b);
        MessageOf(a[0]) + (MessagesOf(a[1..]) + MessagesOf(b));
        (MessageOf(a[0]) + MessagesOf(a[1..])) + MessagesOf(b);
      }
    } else {
      assert a + b == b;
    }
  }

  /** For known flags, `MessagesOf` is position-wise: entry `i` is the message of flag `i`. */
  lemma {:induction false} MessagesOfKnown(flags: seq<Byte>)
    requires AllKnown(flags)
    ensures |MessagesOf(flags)| == |flags|
    ensures forall i :: 0 <= i < |flags| ==> MessagesOf(flags)[i] == NackMessage(flags[i]).value
    decreases |flags|
  {
    if flags != [] {
      MessagesOfKnown(flags[1..]);
    }
  }

  /** Distinct known flags give distinct messages. */
  lemma MessagesOfDistinct(flags: seq<Byte>)
    requires AllKnown(flags)
    requires forall i, j :: 0 <= i < j < |flags| ==> flags[i] != flags[j]
    ensures forall i, j :: 0 <= i < j < |MessagesOf(flags)| ==> MessagesOf(flags)[i] != MessagesOf(flags)[j]
  {
    MessagesOfKnown(flags);
    forall i, j | 0 <= i < j < |MessagesOf(flags)|
      ensures MessagesOf(flags)[i] != MessagesOf(flags)[j]
    {
      NackMessageInjective(flags[i], flags[j]);
    }
  }

  /** One loop iteration appends the message of `field` exactly when its bit is set. */
  lemma PickIsMessage(fields: Byte, field: Byte)
    ensures Pick(fields, field) == MessagesOf(if field & fields != 0 then [field] else [])
  {
  }

  /** The loop visits exactly the flags 1, 2, 4 and 8, in that order. */
  lemma ScanUnrolled(fields: Byte)
    ensures Scan(fields, 1) == Pick(fields, 1) + Pick(fields, 2) + Pick(fields, 4) + Pick(fields, 8)
  {
    assert Scan(fields, 16) == [];
    assert Scan(fields, 8) == Pick(fields, 8);
    assert Scan(fields, 4) == Pick(fields, 4) + Pick(fields, 8);
    assert Scan(fields, 2) == Pick(fields, 2) + Pick(fields, 4) + Pick(fields, 8);
  }

  /** `SetIn` over the low nibble, written out flag by flag. */
  lemma ReportedFlagsUnrolled(fields: Byte)
    ensures ReportedFlags(fields) ==
              (if fields & 1 != 0 then [1] else []) + (if fields & 2 != 0 then [2] else [])
              + (if fields & 4 != 0 then [4] else []) + (if fields & 8 != 0 then [8] else [])
  {
    var f8: seq<Byte> := [8];
    var f4: seq<Byte> := [4, 8];
    var f2: seq<Byte> := [2, 4, 8];
    assert LowFlags[1..] == f2 && f2[1..] == f4 && f4[1..] == f8 && f8[1..] == [];
    assert SetIn(fields, f8) == (if fields & 8 != 0 then [8] else []);
    assert SetIn(fields, f4) == (if fields & 4 != 0 then [4] else []) + SetIn(fields, f8);
    assert SetIn(fields, f2) == (if fields & 2 != 0 then [2] else []) + SetIn(fields, f4);
    var a: seq<Byte> := if fields & 1 != 0 then [1] else [];
    var b: seq<Byte> := if fields & 2 != 0 then [2] else [];
    var c: seq<Byte> := if fields & 4 != 0 then [4] else [];
    var d: seq<Byte> := if fields & 8 != 0 then [8] else [];
    assert ReportedFlags(fields) == a + (b + (c + d));
    AppendAssoc(a, b, c + d);
    AppendAssoc(a + b, c, d);
  }

  /** The loop as written produces the messages of the reported flags, in their order. */
  lemma ScanIsReportedMessages(fields: Byte)
    ensures Scan(fields, 1) == MessagesOf(ReportedFlags(fields))
  {
    ScanUnrolled(fields);
    ReportedFlagsUnrolled(fields);
    var a: seq<Byte> := if fields & 1 != 0 then [1] else [];
    var b: seq<Byte> := if fields & 2 != 0 then [2] else [];
    var c: seq<Byte> := if fields & 4 != 0 then [4] else [];
    var d: seq<Byte> := if fields & 8 != 0 then [8] else [];
    PickIsMessage(fields, 1);
    PickIsMessage(fields, 2);
    PickIsMessage(fields, 4);
    PickIsMessage(fields, 8);
    MessagesOfAppend(a, b);
    MessagesOfAppend(a + b, c);
    MessagesOfAppend(a + b + c, d);
  }

  /** A flag survives `SetIn` exactly when it is listed and set. */
  lemma {:induction false} SetInMembers(fields: Byte, flags: seq<Byte>)
    ensures forall x :: x in SetIn(fields, flags) <==> x in flags && x & fields != 0
    decreases |flags|
  {
    if flags != [] {
      SetInMembers(fields, flags[1..]);
      assert flags == [flags[0]] + flags[1..];
    }
  }

  /** `SetIn` keeps a strictly ascending list strictly ascending. */
  lemma {:induction false} SetInAscending(fields: Byte, flags: seq<Byte>)
    requires StrictlyAscending(flags)
    ensures StrictlyAscending(SetIn(fields, flags))
    decreases |flags|
  {
    if flags != [] {
      var tail := SetIn(fields, flags[1..]);
      SetInAscending(fields, flags[1..]);
      if flags[0] & fields != 0 {
        SetInMembers(fields, flags[1..]);
        var r := [flags[0]] + tail;
        assert SetIn(fields, flags) == r;
        forall i, j | 0 <= i < j < |r|
          ensures r[i] < r[j]
        {
          assert r[j] == tail[j - 1];
          if i == 0 {
            assert r[j] in flags[1..];
            var k :| 0 <= k < |flags| - 1 && flags[1..][k] == r[j];
            assert flags[k + 1] == r[j];
          } else {
            assert r[i] == tail[i - 1];
          }
        }
      } else {
        assert SetIn(fields, flags) == tail;
      }
    }
  }

  /** `BitCount` over a whole byte, written out bit by bit. */
  lemma BitCountUnrolled(x: Byte)
    ensures BitCount(x, 8) ==
              (if x & 1 != 0 then 1 else 0) + (if x & 2 != 0 then 1 else 0)
              + (if x & 4 != 0 then 1 else 0) + (if x & 8 != 0 then 1 else 0)
              + (if x & 16 != 0 then 1 else 0) + (if x & 32 != 0 then 1 else 0)
              + (if x & 64 != 0 then 1 else 0) + (if x & 128 != 0 then 1 else 0)
  {
    assert BitCount(x, 1) == (if x & 1 != 0 then 1 else 0);
    assert BitCount(x, 2) == BitCount(x, 1) + (if x & 2 != 0 then 1 else 0);
    assert BitCount(x, 3) == BitCount(x, 2) + (if x & 4 != 0 then 1 else 0);
    assert BitCount(x, 4) == BitCount(x, 3) + (if x & 8 != 0 then 1 else 0);
    assert BitCount(x, 5) == BitCount(x, 4) + (if x & 16 != 0 then 1 else 0);
    assert BitCount(x, 6) == BitCount(x, 5) + (if x & 32 != 0 then 1 else 0);
    assert BitCount(x, 7) == BitCount(x, 6) + (if x & 64 != 0 then 1 else 0);
  }

  /** The reported flags come out lowest first. */
  lemma ReportedFlagsAscending(fields: Byte)
    ensures StrictlyAscending(ReportedFlags(fields))
  {
    SetInAscending(fields, LowFlags);
  }

  /** A flag is reported exactly when it is one of 1, 2, 4, 8 and set in the mask. */
  lemma ReportedFlagsMembers(fields: Byte)
    ensures forall f :: f in ReportedFlags(fields) <==> f in LowFlags && f & fields != 0
  {
    SetInMembers(fields, LowFlags);
  }

  /** One reported flag per set bit of the low nibble. */
  lemma ReportedFlagsCount(fields: Byte)
    ensures |ReportedFlags(fields)| == BitCount(fields & 0x0F, 8)
  {
    ReportedFlagsUnrolled(fields);
    BitCountUnrolled(fields & 0x0F);
    assert (fields & 0x0F) & 16 == 0 && (fields & 0x0F) & 32 == 0;
    assert (fields & 0x0F) & 64 == 0 && (fields & 0x0F) & 128 == 0;
  }

  /** Every reported flag is a single bit that the message table knows. */
  lemma ReportedFlagsKnown(fields: Byte)
    ensures forall i :: 0 <= i < |ReportedFlags(fields)| ==> SingleBit(ReportedFlags(fields)[i])
    ensures AllKnown(ReportedFlags(fields))
  {
    SetInMembers(fields, LowFlags);
    forall i | 0 <= i < |ReportedFlags(fields)|
      ensures SingleBit(ReportedFlags(fields)[i]) && NackMessage(ReportedFlags(fields)[i]).Some?
    {
      assert ReportedFlags(fields)[i] in LowFlags;
    }
  }

  /**
   * `GetErrorStringData` as written: nil exactly for success; otherwise the
   * messages of the reported flags in ascending flag order, one per set
   * low-nibble bit, without duplicates.
   */
  lemma ErrorStringsSpec(fields: Byte)
    ensures ErrorStrings(fields).NilSlice? <==> fields == NackSuccess
    ensures ErrorStrings(fields).Elements() == MessagesOf(ReportedFlags(fields))
    ensures |ErrorStrings(fields).Elements()| == BitCount(fields & 0x0F, 8)
    ensures forall i, j :: 0 <= i < j < |ErrorStrings(fields).Elements()| ==>
              ErrorStrings(fields).Elements()[i] != ErrorStrings(fields).Elements()[j]
  {
    var fl := ReportedFlags(fields);
    ScanIsReportedMessages(fields);
    if fields == NackSuccess {
      ReportedFlagsUnrolled(fields);
      assert fl == [];
    }
    ReportedFlagsKnown(fields);
    assert |MessagesOf(fl)| == BitCount(fields & 0x0F, 8) by {
      MessagesOfKnown(fl);
      ReportedFlagsCount(fields);
    }
    assert forall i, j :: 0 <= i < j < |MessagesOf(fl)| ==> MessagesOf(fl)[i] != MessagesOf(fl)[j] by {
      ReportedFlagsAscending(fields);
      MessagesOfDistinct(fl);
    }
  }

  /** Entry `i` is the fixed string of the `i`-th reported flag, which is one of 1, 2, 4, 8. */
  lemma ErrorStringsEntries(fields: Byte)
    ensures |ErrorStrings(fields).Elements()| == |ReportedFlags(fields)|
    ensures forall i :: 0 <= i < |ReportedFlags(fields)| ==>
              ReportedFlags(fields)[i] in LowFlags &&
              ErrorStrings(fields).Elements()[i] == NackMessage(ReportedFlags(fields)[i]).value
  {
    ScanIsReportedMessages(fields);
    ReportedFlagsKnown(fields);
    ReportedFlagsMembers(fields);
    MessagesOfKnown(ReportedFlags(fields));
  }

  /** A flag's message is among the known flags' messages exactly when the flag is among them. */
  lemma MessagePresence(flags: seq<Byte>, f: Byte)
    requires AllKnown(flags) && NackMessage(f).Some?
    ensures NackMessage(f).value in MessagesOf(flags) <==> f in flags
  {
    var e := MessagesOf(flags);
    MessagesOfKnown(flags);
    if NackMessage(f).value in e {
      var i :| 0 <= i < |e| && e[i] == NackMessage(f).value;
      NackMessageInjective(f, flags[i]);
    }
    if f in flags {
      var i :| 0 <= i < |flags| && flags[i] == f;
      assert e[i] == NackMessage(f).value;
    }
  }

  /** A known flag's message is produced exactly when the flag is one of 1, 2, 4, 8 and set. */
  lemma ErrorStringsPresence(fields: Byte, f: Byte)
    requires NackMessage(f).Some?
    ensures NackMessage(f).value in ErrorStrings(fields).Elements() <==> f in LowFlags && f & fields != 0
  {
    ScanIsReportedMessages(fields);
    ReportedFlagsKnown(fields);
    ReportedFlagsMembers(fields);
    MessagePresence(ReportedFlags(fields), f);
  }

  /** Each of the four low flags' messages is present iff its bit is set. */
  lemma ErrorStringsLowMessages(fields: Byte)
    ensures "Invalid command" in ErrorStrings(fields).Elements() <==> fields & NackInvalidCmd != 0
    ensures "Invalid key" in ErrorStrings(fields).Elements() <==> fields & NackInvalidKey != 0
    ensures "Invalid address" in ErrorStrings(fields).Elements() <==> fields & NackInvalidAddress != 0
    ensures "Invalid length" in ErrorStrings(fields).Elements() <==> fields & NackInvalidLength != 0
  {
    var e := ErrorStrings(fields).Elements();
    assert "Invalid command" in e <==> fields & NackInvalidCmd != 0 by {
      ErrorStringsPresence(fields, NackInvalidCmd);
    }
    assert "Invalid key" in e <==> fields & NackInvalidKey != 0 by {
      ErrorStringsPresence(fields, NackInvalidKey);
    }
    assert "Invalid address" in e <==> fields & NackInvalidAddress != 0 by {
      ErrorStringsPresence(fields, NackInvalidAddress);
    }
    assert "Invalid length" in e <==> fields & NackInvalidLength != 0 by {
      ErrorStringsPresence(fields, NackInvalidLength);
    }
  }

  /** The loop stops after flag 8, so the messages of 16, 32 and 64 never appear, whatever the mask. */
  lemma ErrorStringsHighMessagesAbsent(fields: Byte)
    ensures "Invalid data" !in ErrorStrings(fields).Elements()
    ensures "Invalid CRC" !in ErrorStrings(fields).Elements()
    ensures "Operation failure" !in ErrorStrings(fields).Elements()
  {
    var e := ErrorStrings(fields).Elements();
    assert "Invalid data" !in e by {
      ErrorStringsPresence(fields, NackInvalidData);
    }
    assert "Invalid CRC" !in e by {
      ErrorStringsPresence(fields, NackInvalidCrc);
    }
    assert "Operation failure" !in e by {
      ErrorStringsPresence(fields, NackOperationFailure);
    }
  }

  /** The high flags 16, 32 and 64 never change the messages produced. */
  lemma ErrorStringsIgnoresHighBits(fields: Byte)
    ensures ErrorStrings(fields).Elements() == ErrorStrings(fields & 0x0F).Elements()
  {
    ErrorStringsSpec(fields);
    ErrorStringsSpec(fields & 0x0F);
    ReportedFlagsUnrolled(fields);
    ReportedFlagsUnrolled(fields & 0x0F);
  }

  /** Worked cases: success, two low bits, an address error, and an operation failure alone. */
  lemma ErrorStringsExamples()
    ensures ErrorStrings(0) == NilSlice
    ensures ErrorStrings(0x03) == Slice(["Invalid command", "Invalid key"])
    ensures ErrorStrings(0x04) == Slice(["Invalid address"])
    ensures ErrorStrings(0x40) == Slice([])
  {
    ScanUnrolled(0x03);
    ScanUnrolled(0x04);
    ScanUnrolled(0x40);
  }

  lemma AppendAssoc<T>(a: seq<T>, b: seq<T>, c: seq<T>)
    ensures (a + b) + c == a + (b + c)
  {
  }

  /** One turn of the loop: the messages from `field` on are this field's, then the rest. */
  lemma ScanStep(fields: Byte, field: Byte)
    requires field != 0 && field <= 8
    ensures field * 2 != 0
    ensures Scan(fields, field) == Pick(fields, field) + Scan(fields, field * 2)
  {
  }

  /** `GetErrorStringData`, written as the source's loop and `switch`. */
  method GetErrorStringData(fields: Byte) returns (r: StringSlice)
    ensures r == ErrorStrings(fields)
  {
    if fields == NackSuccess {
      return NilSlice;
    }
    var strArray: seq<string> := [];
    var field: Byte := 1;
    ghost var rest := Scan(fields, 1);
    while field <= 8
      invariant field == 1 || field == 2 || field == 4 || field == 8 || field == 16
      invariant rest == Scan(fields, field)
      invariant strArray + rest == Scan(fields, 1)
      decreases 16 - field as int
    {
      var found: seq<string> := [];
      if field & fields != 0 {
        if field == NackInvalidCmd {
          found := ["Invalid command"];
        } else if field == NackInvalidKey {
          found := ["Invalid key"];
        } else if field == NackInvalidAddress {
          found := ["Invalid address"];
        } else if field == NackInvalidLength {
          found := ["Invalid length"];
        } else if field == NackInvalidData {
          found := ["Invalid data"];
        } else if field == NackInvalidCrc {
          found := ["Invalid CRC"];
        } else if field == NackOperationFailure {
          found := ["Operation failure"];
        }
      }
      assert found == Pick(fields, field);
      ScanStep(fields, field);
      AppendAssoc(strArray, found, Scan(fields, field * 2));
      strArray := strArray + found;
      field := field * 2;
      rest := Scan(fields, field);
    }
    return Slice(strArray);
  }
}

=== FILE: protocol.dfy ===
/**
 * The bootloader's command identifiers, the five request and five response
 * records, their `Type()` discriminants, and the table of reply decoders.
 */
module Protocol {
  import opened Wrappers
  import opened NackTable

  /** Go's `uint32`. */
  type U32 = x: int | 0 <= x < 0x1_0000_0000

  const MemWriteCmdId: Byte := 2
  const MemReadCmdId: Byte := 3
  const VerCmdId: Byte := 4
  const FlashEraseCmdId: Byte := 5
  const EnterCmdModeCmdId: Byte := 7
  const JumpToAppCmdId: Byte := 8

  /**
   * A Go `[]byte`: the nil slice and an empty slice are different values
   * (the first marshals to JSON `null`, the second to `""`).
   */
  datatype ByteSlice = NilBytes | Bytes(contents: seq<Byte>)

  /** The five exchanges the bridge offers over HTTP. */
  datatype CommandKind = ReadVersion | FlashErase | FlashWrite | FlashRead | JumpToApp

  /** The identifier the device protocol assigns to each exchange. */
  function KindId(k: CommandKind): Byte {
    match k
    case ReadVersion => VerCmdId
    case FlashErase => FlashEraseCmdId
    case FlashWrite => MemWriteCmdId
    case FlashRead => MemReadCmdId
    case JumpToApp => JumpToAppCmdId
  }

  /** A request sent to the device; `commandId` is the field serialised to JSON. */
  datatype Command =
    | ReadVersionRequest(commandId: Byte)
    | FlashEraseRequest(commandId: Byte, startAddress: U32, pageCount: U32)
    | FlashWriteRequest(commandId: Byte, startAddress: U32, data: ByteSlice, size: U32)
    | FlashReadRequest(commandId: Byte, startAddress: U32, length: U32)
    | JumpToAppRequest(commandId: Byte)
  {
    /** Which exchange this request starts. */
    function Kind(): CommandKind {
      match this
      case ReadVersionRequest(_) => ReadVersion
      case FlashEraseRequest(_, _, _) => FlashErase
      case FlashWriteRequest(_, _, _, _) => FlashWrite
      case FlashReadRequest(_, _, _) => FlashRead
      case JumpToAppRequest(_) => JumpToApp
    }

    /** The request's `Type()`: a constant per record type, whatever `commandId` holds. */
    function Type(): (id: Byte)
      ensures id == KindId(Kind())
      ensures id in DecoderIds && id != EnterCmdModeCmdId
    {
      match this
      case FlashEraseRequest(_, _, _) => FlashEraseCmdId
      case ReadVersionRequest(_) => VerCmdId
      case JumpToAppRequest(_) => JumpToAppCmdId
      case FlashReadRequest(_, _, _) => MemReadCmdId
      case FlashWriteRequest(_, _, _, _) => MemWriteCmdId
    }
  }

  /** The fields every reply shares. */
  datatype CommonResponseData = CommonResponseData(status: bool, errorCode: Byte, errors: StringSlice)

  /** A decoded device reply. */
  datatype Response =
    | ReadVersionResponse(common: CommonResponseData, version: Byte)
    | FlashEraseResponse(common: CommonResponseData)
    | FlashWriteResponse(common: CommonResponseData)
    | JumpToAppResponse(common: CommonResponseData)
    | FlashReadResponse(data: ByteSlice, common: CommonResponseData)
  {
    /** Which exchange this reply ends. */
    function Kind(): CommandKind {
      match this
      case ReadVersionResponse(_, _) => ReadVersion
      case FlashEraseResponse(_) => FlashErase
      case FlashWriteResponse(_) => FlashWrite
      case JumpToAppResponse(_) => JumpToApp
      case FlashReadResponse(_, _) => FlashRead
    }

    /** The response's `Type()`: a constant per record type, whatever the common fields hold. */
    function Type(): (id: Byte)
      ensures id == KindId(Kind())
      ensures id in DecoderIds && id != EnterCmdModeCmdId
    {
      match this
      case ReadVersionResponse(_, _) => VerCmdId
      case FlashEraseResponse(_) => FlashEraseCmdId
      case FlashWriteResponse(_) => MemWriteCmdId
      case JumpToAppResponse(_) => JumpToAppCmdId
      case FlashReadResponse(_, _) => MemReadCmdId
    }

    /** The same reply with its `Errors` field replaced. */
    function WithErrors(errors: StringSlice): Response {
      this.(common := common.(errors := errors))
    }
  }

  /** The identifiers `responseMap` holds a decoder for. */
  const DecoderIds: set<Byte> := {VerCmdId, FlashEraseCmdId, MemWriteCmdId, MemReadCmdId, JumpToAppCmdId}

  /**
   * A text reply that parsed as a JSON object, seen through the fields any of
   * the response records reads; a field the object lacks holds its zero value.
   */
  datatype ReplyFields = ReplyFields(status: bool, errorCode: Byte, errors: StringSlice, version: Byte, data: ByteSlice)

  /**
   * `responseMap[id]` applied to a well-formed reply: the record for `id`
   * filled from the reply's fields, or `None` when the map has no entry.
   */
  function Decode(id: Byte, f: ReplyFields): (r: Option<Response>)
    ensures r.Some? <==> id in DecoderIds
    ensures r.Some? ==> r.value.Type() == id
    ensures r.Some? ==> r.value.common == CommonResponseData(f.status, f.errorCode, f.errors)
  {
    var common := CommonResponseData(f.status, f.errorCode, f.errors);
    if id == VerCmdId then Some(ReadVersionResponse(common, f.version))
    else if id == FlashEraseCmdId then Some(FlashEraseResponse(common))
    else if id == MemWriteCmdId then Some(FlashWriteResponse(common))
    else if id == MemReadCmdId then Some(FlashReadResponse(f.data, common))
    else if id == JumpToAppCmdId then Some(JumpToAppResponse(common))
    else None
  }

  /** The fixed identifier each request record's `Type()` returns. */
  lemma RequestTypeIds(c: Command)
    ensures c.FlashEraseRequest? ==> c.Type() == 5
    ensures c.ReadVersionRequest? ==> c.Type() == 4
    ensures c.JumpToAppRequest? ==> c.Type() == 8
    ensures c.FlashReadRequest? ==> c.Type() == 3
    ensures c.FlashWriteRequest? ==> c.Type() == 2
  {
  }

  /** The fixed identifier each response record's `Type()` returns. */
  lemma ResponseTypeIds(r: Response)
    ensures r.ReadVersionResponse? ==> r.Type() == 4
    ensures r.FlashEraseResponse? ==> r.Type() == 5
    ensures r.FlashWriteResponse? ==> r.Type() == 2
    ensures r.JumpToAppResponse? ==> r.Type() == 8
    ensures r.FlashReadResponse? ==> r.Type() == 3
  {
  }

  /** The identifiers are pairwise distinct, so `KindId` is injective. */
  lemma KindIdInjective(a: CommandKind, b: CommandKind)
    ensures KindId(a) == KindId(b) <==> a == b
  {
  }

  /** Request `Type()` tells the five request records apart, and nothing finer. */
  lemma RequestTypeInjective(a: Command, b: Command)
    ensures a.Type() == b.Type() <==> a.Kind() == b.Kind()
  {
    KindIdInjective(a.Kind(), b.Kind());
  }

  /** Request `Type()` does not read `commandId` or any other field bound from the HTTP body. */
  lemma RequestTypeIgnoresFields(c: Command, d: Command, id: Byte)
    requires c.Kind() == d.Kind()
    ensures c.(commandId := id).Type() == c.Type() == d.Type()
  {
  }

  /** Response `Type()` tells the five response records apart, and nothing finer. */
  lemma ResponseTypeInjective(a: Response, b: Response)
    ensures a.Type() == b.Type() <==> a.Kind() == b.Kind()
  {
    KindIdInjective(a.Kind(), b.Kind());
  }

  /** Response `Type()` does not read the status, error code or error strings. */
  lemma ResponseTypeIgnoresCommon(r: Response, common: CommonResponseData)
    ensures r.(common := common).Type() == r.Type()
    ensures r.(common := common).Kind() == r.Kind()
  {
  }

  /** A request and a response carry the same `Type()` exactly when they belong to the same exchange. */
  lemma RequestResponseAgree(c: Command, r: Response)
    ensures c.Type() == r.Type() <==> c.Kind() == r.Kind()
  {
    KindIdInjective(c.Kind(), r.Kind());
  }

  /** Entering command mode has an identifier but no request record and no decoder. */
  lemma EnterCmdModeHasNoDecoder(f: ReplyFields)
    ensures Decode(EnterCmdModeCmdId, f) == None
    ensures forall c: Command :: c.Type() != EnterCmdModeCmdId
    ensures forall k: CommandKind :: KindId(k) != EnterCmdModeCmdId
  {
  }

  /** The decoders are exactly the five exchanges: each kind's decoder builds that kind's record. */
  lemma DecoderPerKind(k: CommandKind, f: ReplyFields)
    ensures Decode(KindId(k), f).Some? && Decode(KindId(k), f).value.Kind() == k
    ensures k == ReadVersion ==> Decode(KindId(k), f).value.version == f.version
    ensures k == FlashRead ==> Decode(KindId(k), f).value.data == f.data
  {
    KindIdInjective(k, Decode(KindId(k), f).value.Kind());
  }
}

=== FILE: server.dfy ===
/**
 * The process as a whole: the bridge state beside the status hub, with the
 * device's connect and close handlers publishing into the hub and each
 * event-stream subscriber joining, receiving the current status, and
 * leaving.
 */
module Server {
  import opened Wrappers
  import opened Bridge
  import opened StatusHub

  datatype ServerState = ServerState(bridge: BridgeState, hub: Hub)

  /** Both halves satisfy their invariants. */
  predicate Consistent(s: ServerState) {
    Bridge.Valid(s.bridge) && StatusHub.Valid(s.hub)
  }

  /** The state after start-up, before any device or subscriber. */
  function Start(): ServerState {
    ServerState(Bridge.Init(), StatusHub.Empty())
  }

  /** Publish `msg` through the hub's `Message` channel. */
  function Publish(s: ServerState, msg: string): Result<ServerState, HubPanic> {
    match Broadcast(s.hub, msg)
    case Err(e) => Err(e)
    case Ok(h) => Ok(s.(hub := h))
  }

  /**
   * The first half of a link handler (`up` for connect): the send on the
   * unbuffered `stream.Message`, which completes once the hub has taken the
   * status text and broadcast it. `connected` still holds its old value.
   */
  function Announce(s: ServerState, up: bool): (r: Result<ServerState, HubPanic>)
    ensures Consistent(s) ==> r.Ok? && Consistent(r.value)
    ensures r.Ok? <==> Broadcast(s.hub, Status(up)).Ok?
    ensures r.Ok? ==> r.value.bridge == s.bridge && r.value.hub == Broadcast(s.hub, Status(up)).value
  {
    Publish(s, if up then Bridge.Connect(s.bridge).1 else Bridge.Close(s.bridge).1)
  }

  /** The second half: the assignment to `connected`, once the send has completed. */
  function MarkLink(s: ServerState, up: bool): (r: ServerState)
    ensures r.hub == s.hub && r.bridge.connected == up
    ensures r.bridge.commands == s.bridge.commands && r.bridge.responses == s.bridge.responses
    ensures Consistent(s) ==> Consistent(r)
  {
    s.(bridge := if up then Bridge.Connect(s.bridge).0 else Bridge.Close(s.bridge).0)
  }

  /** `websocketConnectHandler` run to the end: publish "Connected", then set `connected`. */
  function DeviceConnected(s: ServerState): Result<ServerState, HubPanic> {
    match Announce(s, true)
    case Err(e) => Err(e)
    case Ok(s1) => Ok(MarkLink(s1, true))
  }

  /** `websocketCloseHandler` run to the end: publish "Disconnected", then clear `connected`. */
  function DeviceClosed(s: ServerState): Result<ServerState, HubPanic> {
    match Announce(s, false)
    case Err(e) => Err(e)
    case Ok(s1) => Ok(MarkLink(s1, false))
  }

  /** `serveHTTP` hands a new channel to the hub, which registers it. */
  function Join(s: ServerState, id: ClientId): ServerState {
    s.(hub := Register(s.hub, id))
  }

  /**
   * What `handleSSE`'s first send does. Nothing reads the channel until the
   * handler itself starts streaming, so a send that finds the buffer full
   * never returns.
   */
  datatype StatusPush = Delivered(state: ServerState) | Hangs | Panicked(error: HubPanic)

  /** `handleSSE`'s first act: send the current status on its own channel. */
  function SendStatus(s: ServerState, id: ClientId): (r: StatusPush)
    ensures r.Panicked? <==> Lookup(s.hub, id).closed
    ensures r.Hangs? <==> !Lookup(s.hub, id).closed && |Lookup(s.hub, id).pending| >= ClientCapacity
    ensures r.Delivered? ==>
              && id in r.state.hub.clients
              && r.state.hub.clients[id].pending == Lookup(s.hub, id).pending + [Status(s.bridge.connected)]
              && OthersUnchanged(s.hub, r.state.hub, id)
              && r.state.bridge == s.bridge
              && (Consistent(s) ==> Consistent(r.state))
  {
    var c := Lookup(s.hub, id);
    if c.closed then Panicked(SendOnClosedChannel)
    else if |c.pending| >= ClientCapacity then Hangs
    else
      match Push(s.hub, id, Status(s.bridge.connected))
      case Err(e) => Panicked(e)
      case Ok(h) => Delivered(s.(hub := h))
  }

  /** A new subscriber with no step of anyone else in between. */
  function Subscribe(s: ServerState, id: ClientId): StatusPush {
    SendStatus(Join(s, id), id)
  }

  /** The deferred `stream.ClosedClients <- clientChan` once the event stream has ended. */
  function Leave(s: ServerState, id: ClientId): (r: Result<ServerState, HubPanic>)
    ensures r.Err? <==> Lookup(s.hub, id).closed
    ensures r.Ok? ==> r.value.bridge == s.bridge && r.value.hub == Deregister(s.hub, id).value
  {
    match Deregister(s.hub, id)
    case Err(e) => Err(e)
    case Ok(h) => Ok(s.(hub := h))
  }

  /** The process starts consistent, disconnected, with empty mailboxes and no subscribers. */
  lemma StartIsDisconnected()
    ensures Consistent(Start())
    ensures !Start().bridge.connected && Status(Start().bridge.connected) == "Disconnected"
    ensures Start().bridge.commands.buf == [] && Start().bridge.responses.buf == []
    ensures Registered(Start().hub) == {}
  {
  }

  /**
   * Connecting raises the flag and appends "Connected" to every registered
   * subscriber's queue and no one else's; the mailboxes are untouched.
   */
  lemma DeviceConnectedNotifies(s: ServerState)
    requires Consistent(s)
    ensures DeviceConnected(s).Ok?
    ensures Consistent(DeviceConnected(s).value)
    ensures DeviceConnected(s).value.bridge.connected
    ensures Status(DeviceConnected(s).value.bridge.connected) == "Connected"
    ensures DeviceConnected(s).value.bridge.commands == s.bridge.commands
    ensures DeviceConnected(s).value.bridge.responses == s.bridge.responses
    ensures DeviceConnected(s).value.hub == Broadcast(s.hub, "Connected").value
  {
  }

  /**
   * Closing lowers the flag and appends "Disconnected" to every registered
   * subscriber's queue and no one else's; the mailboxes are untouched.
   */
  lemma DeviceClosedNotifies(s: ServerState)
    requires Consistent(s)
    ensures DeviceClosed(s).Ok?
    ensures Consistent(DeviceClosed(s).value)
    ensures !DeviceClosed(s).value.bridge.connected
    ensures Status(DeviceClosed(s).value.bridge.connected) == "Disconnected"
    ensures DeviceClosed(s).value.bridge.commands == s.bridge.commands
    ensures DeviceClosed(s).value.bridge.responses == s.bridge.responses
    ensures DeviceClosed(s).value.hub == Broadcast(s.hub, "Disconnected").value
  {
  }

  /** A new subscriber, with nothing interleaved, finds exactly the current status in its queue. */
  lemma LateJoinerSeesStatus(s: ServerState, id: ClientId)
    requires Consistent(s) && id !in s.hub.clients
    ensures Subscribe(s, id).Delivered?
    ensures Consistent(Subscribe(s, id).state)
    ensures id in Registered(Subscribe(s, id).state.hub)
    ensures Subscribe(s, id).state.hub.clients[id].pending == [Status(s.bridge.connected)]
  {
  }

  /** A subscriber that joins after the device connected receives "Connected" first. */
  lemma LateJoinerAfterConnect(s: ServerState, id: ClientId)
    requires Consistent(s) && id !in s.hub.clients
    ensures DeviceConnected(s).Ok? && Subscribe(DeviceConnected(s).value, id).Delivered?
    ensures Subscribe(DeviceConnected(s).value, id).state.hub.clients[id].pending == ["Connected"]
  {
    DeviceConnectedNotifies(s);
    LateJoinerSeesStatus(DeviceConnected(s).value, id);
  }

  /**
   * A subscriber whose channel the hub registers between a link handler's
   * send and its assignment to `connected` reads the old flag: its first
   * message is the status from before the event, the event itself never
   * reaches it, and once the handler has finished the flag says otherwise.
   */
  lemma JoinerInLinkWindowSeesStaleStatus(s: ServerState, id: ClientId, up: bool)
    requires Consistent(s) && id !in s.hub.clients && s.bridge.connected != up
    ensures Announce(s, up).Ok?
    ensures Subscribe(Announce(s, up).value, id).Delivered?
    ensures Subscribe(Announce(s, up).value, id).state.hub.clients[id].pending == [Status(!up)]
    ensures Status(up) !in Subscribe(Announce(s, up).value, id).state.hub.clients[id].pending
    ensures MarkLink(Subscribe(Announce(s, up).value, id).state, up).bridge.connected == up
    ensures MarkLink(Subscribe(Announce(s, up).value, id).state, up).hub.clients[id].pending == [Status(!up)]
  {
    var a := Announce(s, up).value;
    LateJoinerSeesStatus(a, id);
  }

  /**
   * An event published between registration and the status push fills the
   * new subscriber's one-slot channel, so the handler's own push of the
   * status can never complete: the subscriber sees the event and then
   * nothing from its handler.
   */
  lemma InterleavedEventHangsStatusPush(s: ServerState, id: ClientId)
    requires Consistent(s) && id !in s.hub.clients
    ensures Consistent(Join(s, id))
    ensures DeviceClosed(Join(s, id)).Ok?
    ensures DeviceClosed(Join(s, id)).value.hub.clients[id].pending == ["Disconnected"]
    ensures SendStatus(DeviceClosed(Join(s, id)).value, id).Hangs?
  {
    var j := Join(s, id);
    DeviceClosedNotifies(j);
  }

  /** The status text for each link event, `true` for connect and `false` for close. */
  function EventMessages(ups: seq<bool>): (msgs: seq<string>)
    ensures |msgs| == |ups|
    ensures forall i :: 0 <= i < |ups| ==> msgs[i] == Status(ups[i])
  {
    if ups == [] then [] else [Status(ups[0])] + EventMessages(ups[1..])
  }

  /** A run of connect (`true`) and close (`false`) events, stopping at the first panic. */
  function LinkEvents(s: ServerState, ups: seq<bool>): Result<ServerState, HubPanic>
    decreases |ups|
  {
    if ups == [] then Ok(s)
    else
      var r := if ups[0] then DeviceConnected(s) else DeviceClosed(s);
      match r
      case Err(e) => Err(e)
      case Ok(s1) => LinkEvents(s1, ups[1..])
  }

  /** A run of link events moves the hub exactly as broadcasting their status texts would. */
  lemma {:induction false} LinkEventsBroadcast(s: ServerState, ups: seq<bool>)
    requires Consistent(s)
    ensures LinkEvents(s, ups).Ok?
    ensures Consistent(LinkEvents(s, ups).value)
    ensures BroadcastAll(s.hub, EventMessages(ups)).Ok?
    ensures LinkEvents(s, ups).value.hub == BroadcastAll(s.hub, EventMessages(ups)).value
    ensures ups != [] ==> LinkEvents(s, ups).value.bridge.connected == ups[|ups| - 1]
    ensures LinkEvents(s, ups).value.bridge.commands == s.bridge.commands
    ensures LinkEvents(s, ups).value.bridge.responses == s.bridge.responses
    decreases |ups|
  {
    if ups != [] {
      var s1 := if ups[0] then DeviceConnected(s).value else DeviceClosed(s).value;
      if ups[0] {
        DeviceConnectedNotifies(s);
      } else {
        DeviceClosedNotifies(s);
      }
      LinkEventsBroadcast(s1, ups[1..]);
      assert EventMessages(ups)[1..] == EventMessages(ups[1..]);
      assert EventMessages(ups)[0] == Status(ups[0]);
      if |ups| > 1 {
        assert ups[1..][|ups[1..]| - 1] == ups[|ups| - 1];
      }
    }
  }

  /**
   * A subscriber that has left hears nothing more: later link events leave
   * its channel as it was, closed and out of the registered set.
   */
  lemma LeaverHearsNothingMore(s: ServerState, id: ClientId, ups: seq<bool>)
    requires Consistent(s) && id in Registered(s.hub)
    ensures Leave(s, id).Ok?
    ensures Consistent(Leave(s, id).value)
    ensures id !in Registered(Leave(s, id).value.hub)
    ensures LinkEvents(Leave(s, id).value, ups).Ok?
    ensures Lookup(LinkEvents(Leave(s, id).value, ups).value.hub, id) == Client(s.hub.clients[id].pending, false, true)
  {
    var l := Leave(s, id).value;
    LinkEventsBroadcast(l, ups);
    BroadcastAllInOrder(l.hub, EventMessages(ups));
  }

  /**
   * Every subscriber registered throughout a run of link events receives
   * all of their status texts in the order the events happened, after what
   * it already held.
   */
  lemma SubscribersSeeEventsInOrder(s: ServerState, ups: seq<bool>, id: ClientId)
    requires Consistent(s) && id in Registered(s.hub)
    ensures LinkEvents(s, ups).Ok?
    ensures id in LinkEvents(s, ups).value.hub.clients
    ensures LinkEvents(s, ups).value.hub.clients[id].pending == s.hub.clients[id].pending + EventMessages(ups)
  {
    LinkEventsBroadcast(s, ups);
    BroadcastAllInOrder(s.hub, EventMessages(ups));
  }
}

=== FILE: wrappers.dfy ===
/** Failure-carrying datatypes shared by the other modules. */
module Wrappers {

  /** A value that may be absent: a blocked receive, a missing decoder. */
  datatype Option<+T> = None | Some(value: T)

  /** A step that either succeeds or stops with a Go run-time panic. */
  datatype Result<+T, +E> = Ok(value: T) | Err(error: E)
}
